=== FILE: README.md ===
# UnrealIRCd history store and event scheduler in Dafny

This project models two pieces of the UnrealIRCd IRC daemon and proves properties of them.

* **The in-memory channel history backend** (`src/modules/history_backend_mem.c`) is
  module `HistoryMem` in `history_mem.dfy`.
  - It keeps a hash table of 1019 buckets. Each bucket holds a chain of log objects,
    newest first, and objects are found by case-insensitive name.
  - Each object holds its lines oldest first. It caches the number of lines (`num_lines`)
    and the oldest timestamp (`oldest_t`, where 0 means "none").
  - Lines are added with a guaranteed `time` message tag.
  - Lines are trimmed by age (`max_time`) and then by count (`max_lines`).
  - Objects are destroyed with their lines.
  - A history request replays the lines to a client as a sequence of outgoing messages,
    optionally framed by `BATCH +id chathistory` / `BATCH -id`.
* **The periodic event scheduler** (`src/api-event.c`) is module `Events` in `events.dfy`.
  - Events live in one list, newest first.
  - `EventAdd` validates and prepends a new event, raising a too-small interval to 100 ms.
  - `EventMarkDel` sets the count to -1.
  - `EventDel` unlinks an event and returns its successor.
  - `EventFind` searches by exact name.
  - `EventMod` rewrites the fields named by the flags.
  - `DoEvents` walks the list once. It fires the events that are due and unlinks finished
    and marked events while it walks, continuing from the successor `EventDel` returned.

`wrappers.dfy` (module `Wrappers`) holds `Option`, which models a pointer that may be
NULL, the integer helpers `Min` and `Max`, and two small sequence lemmas.

Every C function that mutates shared state becomes a pure function from the old state to
the new one:
* in the history store, the state is the `Index` of bucket chains;
* in the scheduler, it is the `seq<Event>`.

An object or event is identified by its position or its `id`, which stands for its address.
Everything the code gets from outside is a parameter:
* the SipHash function,
* the formatted clock and `server_time_to_unix_time` (`TimeSource`),
* `TStime()` (`now`),
* the client's capabilities (`Client`),
* the generated batch id,
* `minimum_msec_since_last_run` (`elapsed`).

`DoEvents` is a loop in a method. The method is proved equal to a per-event reference
definition (`Survivors`/`Firings`). The per-event outcome lemmas are then stated on that
definition.

## Model

| member | source | states |
|---|---|---|
| HistoryMem.Truncate | src/modules/history_backend_mem.c:118 | the stored name is a prefix of the given one: the whole name when it fits, otherwise exactly its first OBJECTLEN characters |
| HistoryMem.SameName | src/modules/history_backend_mem.c:100 | two names match when they are equal after ASCII lower-casing, as `strcasecmp` decides; the lookups use it at lines 100 and 113 |
| HistoryMem.Bucket | src/modules/history_backend_mem.c:88-91 | the bucket number is always a valid index into the 1019-entry table |
| HistoryMem.Scan | src/modules/history_backend_mem.c:98-103 | the chain walk returns the first object whose name matches case-insensitively, and None only when no object in the chain matches |
| HistoryMem.FindObject | src/modules/history_backend_mem.c:93-104 | a found object is in the target's bucket and has a case-insensitively equal name; NULL means no object in that bucket matches |
| HistoryMem.FindOrAdd | src/modules/history_backend_mem.c:106-121 | an existing object is returned with the table untouched; otherwise a fresh empty object with the truncated name is pushed onto the head of the target's bucket; no other bucket changes |
| HistoryMem.DeleteObject | src/modules/history_backend_mem.c:123-129 | the object is unlinked from its bucket: the entries before it stay, the ones after move up by one, and other buckets are unchanged |
| HistoryMem.FindTag | src/modules/history_backend_mem.c:141 | a found tag is the first tag in the list with the asked name; None means no tag has that name |
| HistoryMem.EnsureTimeTag | src/modules/history_backend_mem.c:131-171 | the copied tags always contain a `time` tag, and the line's timestamp is the parse of that tag; an existing `time` tag is kept as is, otherwise one with the current clock is prepended to the unchanged original tags |
| HistoryMem.EnsureTimeTagIdempotent | src/modules/history_backend_mem.c:141-168 | stamping tags that were already stamped changes nothing |
| HistoryMem.NewLine | src/modules/history_backend_mem.c:176-178 | the new line keeps the given text and carries every caller tag in order, after at most one added tag; a caller `time` tag leaves the tags unchanged, otherwise the added tag carries the current clock; the line has a `time` tag and its stamp is the parse of that tag |
| HistoryMem.Track | src/modules/history_backend_mem.c:190-191 | the `oldest_t` update: the new stamp when the cache is 0 ("no lines"), otherwise the smaller of the cache and the stamp; the retention loops apply the same rule at lines 309-310 and 326-327 |
| HistoryMem.OldestIsMinimum | src/modules/history_backend_mem.c:190-191 | the reference oldest timestamp of a non-empty log is attained by some line and is no larger than any line's |
| HistoryMem.TrackExtends | src/modules/history_backend_mem.c:190-191 | the incremental `oldest_t` update on append agrees with recomputing the oldest timestamp of the extended log, when no stamp is 0 |
| HistoryMem.AddLine | src/modules/history_backend_mem.c:174-192 | the new line is appended after all old lines and is exactly the stamped line built from the caller's tags and text; num_lines grows by one; oldest_t becomes the new stamp if it was 0, else the smaller of the two |
| HistoryMem.AddLineConsistent | src/modules/history_backend_mem.c:174-192 | appending keeps both caches equal to the line count and the oldest stamp, and keeps all stamps non-zero when the new stamp is non-zero |
| HistoryMem.ZeroStampBreaksCache | src/modules/history_backend_mem.c:190-191 | a concrete log with a line stamped 0 whose cached oldest_t goes wrong after one append, because 0 doubles as "no lines" |
| HistoryMem.DelLine | src/modules/history_backend_mem.c:195-220 | exactly the i-th line is unlinked, num_lines drops by one, and oldest_t is left for the caller to recompute |
| HistoryMem.DelLineLeavesOldestStale | src/modules/history_backend_mem.c:195-220 | after deleting the oldest line the cached oldest_t is stale although num_lines is still right, which is why the retention passes recompute it |
| HistoryMem.NewerMembers | src/modules/history_backend_mem.c:297-312 | a line survives the age filter exactly when it is in the log and is not older than the redline |
| HistoryMem.NewerKeepsAll | src/modules/history_backend_mem.c:297-312 | when no line is older than the redline the age filter keeps the log unchanged |
| HistoryMem.AgeSweep | src/modules/history_backend_mem.c:299-311 | the age loop from line i leaves the first i lines and keeps, in order, exactly the later lines not older than the redline, with num_lines reduced by the number removed |
| HistoryMem.AgeSweepOldest | src/modules/history_backend_mem.c:299-311 | the oldest_t that the age loop recomputes over the lines it keeps is the oldest stamp of the resulting log |
| HistoryMem.CountSweep | src/modules/history_backend_mem.c:316-328 | the count loop removes exactly the lines in excess of max_lines, from the oldest end, and lowers num_lines by the same number |
| HistoryMem.CountSweepOldest | src/modules/history_backend_mem.c:316-328 | the oldest_t that the count loop recomputes is the oldest stamp of the resulting log |
| HistoryMem.NothingStale | src/modules/history_backend_mem.c:297 | when the cached oldest_t is at or after the redline no line is removed by age, which justifies the fast-path test |
| HistoryMem.AgePass | src/modules/history_backend_mem.c:297-312 | on a consistent log the age pass leaves exactly the lines not older than the redline and restores both caches |
| HistoryMem.AgePassSweep | src/modules/history_backend_mem.c:297-312 | running the age loop with oldest_t reset to 0 yields a consistent log |
| HistoryMem.CountPass | src/modules/history_backend_mem.c:314-329 | on a consistent log the count pass keeps exactly the newest max_lines lines, or all of them when there are fewer, and restores both caches |
| HistoryMem.CountPassSweep | src/modules/history_backend_mem.c:314-329 | running the count loop over an over-full log with oldest_t reset to 0 keeps the newest max_lines lines and yields a consistent log |
| HistoryMem.Retain | src/modules/history_backend_mem.c:294-331 | the age pass followed by the count pass keeps the object's name; what the lines become is stated by RetainKeeps, RetainConsistent and RetainOnlyNewer |
| HistoryMem.RetainKeeps | src/modules/history_backend_mem.c:285-332 | after both passes the log is the newest max_lines of the lines not older than now minus max_time |
| HistoryMem.RetainConsistent | src/modules/history_backend_mem.c:285-332 | both retention passes together keep num_lines and oldest_t correct |
| HistoryMem.RetainOnlyNewer | src/modules/history_backend_mem.c:285-332 | every line left after retention was there before and is not older than the redline |
| HistoryMem.RetainKeepsNewest | src/modules/history_backend_mem.c:285-332 | a concrete three-line log trimmed to two lines keeps the two newest and updates both caches |
| HistoryMem.HistoryDel | src/modules/history_backend_mem.c:285-332 | returns 0 with nothing changed for an unknown target; otherwise returns 1 and the target's object becomes its retained form in the same chain position, while every other object stays put |
| HistoryMem.HistoryDelValid | src/modules/history_backend_mem.c:285-332 | trimming a target keeps the table well formed (right buckets, unique names, correct caches) |
| HistoryMem.HistoryAdd | src/modules/history_backend_mem.c:223-228 | always returns 0; the target's chain grows by one exactly when the target was unknown; other buckets are unchanged |
| HistoryMem.HistoryAddFinds | src/modules/history_backend_mem.c:223-228 | after adding, the target's object is the previous object (or a fresh empty one) with the new line appended |
| HistoryMem.FindOrAddLocates | src/modules/history_backend_mem.c:106-121 | the returned handle points at the first object of the chain that matches the name, which is the object that was there before or the new one |
| HistoryMem.HistoryDestroy | src/modules/history_backend_mem.c:334-356 | returns 0 with nothing changed for an unknown target; otherwise returns 1 and exactly the object the lookup finds is unlinked: the entries before it stay, the ones after move up by one, and other buckets are unchanged |
| HistoryMem.HistoryDestroyRemoves | src/modules/history_backend_mem.c:334-356 | after destroying, the target can no longer be found, the table stays well formed, and every object with another name is still there |
| HistoryMem.DestroyThenAddIsFresh | src/modules/history_backend_mem.c:223-228 | adding to a destroyed target starts a fresh log that holds only the new line |
| HistoryMem.EmptyValid | src/modules/history_backend_mem.c:63 | the empty table is well formed |
| HistoryMem.AtMostOnce | src/modules/history_backend_mem.c:106-121 | in a well-formed table a name, up to case, occurs in at most one place |
| HistoryMem.FindObjectIsGlobal | src/modules/history_backend_mem.c:93-104 | in a well-formed table, looking only in the name's bucket finds nothing exactly when no object anywhere has that name |
| HistoryMem.FindIgnoresCase | src/modules/history_backend_mem.c:93-104 | two names that differ only in letter case find the same object |
| HistoryMem.ScanIgnoresCase | src/modules/history_backend_mem.c:98-103 | the chain walk gives the same answer for two names that differ only in letter case |
| HistoryMem.ReplaceValid | src/modules/history_backend_mem.c:174-192 | replacing an object in place by a consistent one with the same name keeps its chain well formed |
| HistoryMem.PrependValid | src/modules/history_backend_mem.c:119 | pushing a new, consistent object with a fresh name onto the head of its own bucket keeps the chain well formed |
| HistoryMem.RemoveValid | src/modules/history_backend_mem.c:123-129 | unlinking any object keeps its chain well formed |
| HistoryMem.RemoveNamed | src/modules/history_backend_mem.c:123-129 | unlinking the object with a given name from a chain with unique names removes that name and keeps every other object |
| HistoryMem.FindOrAddValid | src/modules/history_backend_mem.c:106-121 | find-or-add keeps the table well formed and the returned object is what a later lookup of the name finds |
| HistoryMem.HistoryAddValid | src/modules/history_backend_mem.c:223-228 | adding a line with a non-zero stamp keeps the table well formed |
| HistoryMem.LongNameNeverFound | src/modules/history_backend_mem.c:106-121 | a target longer than OBJECTLEN is stored truncated and so is still not found after find-or-add |
| HistoryMem.CanReceiveHistory | src/modules/history_backend_mem.c:230-235 | history is replayed only to clients with the server-time capability; SendLines and HistoryRequest state its effect |
| HistoryMem.BatchOpen | src/modules/history_backend_mem.c:273 | the batch opening line `:<server> BATCH +<id> chathistory <target>`, sent without tags |
| HistoryMem.BatchClose | src/modules/history_backend_mem.c:281 | the batch closing line `:<server> BATCH -<id>`, sent without tags |
| HistoryMem.SendLine | src/modules/history_backend_mem.c:237-256 | a client without server-time gets nothing; otherwise exactly one message with the line's text and its tags, with a `batch` tag in front when the batch id is non-empty |
| HistoryMem.SendLines | src/modules/history_backend_mem.c:276-277 | a client without server-time gets nothing; otherwise one message per line, in order, with the line's text and its tags, prefixed by a `batch` tag when a batch id is set |
| HistoryMem.HistoryRequest | src/modules/history_backend_mem.c:258-283 | returns 1 exactly when the target exists and the client has server-time; otherwise returns 0 and sends nothing |
| HistoryMem.ReplayBatchedFrame | src/modules/history_backend_mem.c:269-281 | with the batch capability the replay is one BATCH open, one message per line, and one BATCH close |
| HistoryMem.ReplayBatchedLines | src/modules/history_backend_mem.c:276-277 | inside the batch the i-th message is the i-th line, tagged with the batch id followed by its own tags |
| HistoryMem.ReplayPlain | src/modules/history_backend_mem.c:276-277 | without the batch capability the replay is exactly the stored lines with their own tags, in order |
| HistoryMem.ReplayEndsWithAddedLine | src/modules/history_backend_mem.c:223-283 | after adding a line, a plain server-time request succeeds and its last message is the line just added, with its stamped tags |
| Events.FreshId | src/api-event.c:64 | the new event's identity differs from every event already in the list |
| Events.EventAdd | src/api-event.c:47-84 | rejects exactly a NULL name, a negative interval or count, or a NULL callback, leaving the list unchanged and the module error INVALID; otherwise prepends a new event with the given fields, an interval of exactly max(every_msec, 100) ms, last run now, and module error NOERROR |
| Events.EventAddKeepsUnique | src/api-event.c:64-73 | adding an event keeps the event identities in the list distinct |
| Events.EventMarkDel | src/api-event.c:86-90 | the marked event's count becomes -1 and nothing else in the list changes |
| Events.Position | src/api-event.c:95-98 | the list walk stops at the first event with the identity, and finds nothing only when no event has it |
| Events.EventDel | src/api-event.c:92-120 | an event not in the list leaves it unchanged and yields NULL; otherwise exactly that node is unlinked and its former successor is returned |
| Events.EventDelRemovesExactly | src/api-event.c:92-120 | after deleting, identities stay distinct, the deleted event is gone, and every other event is still in the list |
| Events.EventFind | src/api-event.c:122-130 | returns the first event whose name is exactly equal, and NULL only when no event has that name |
| Events.EventMod | src/api-event.c:132-154 | a NULL event or NULL info gives -1, sets the owner's error to INVALID and changes nothing; otherwise gives 0, replaces exactly the flagged fields, keeps identity, last run and owner, and sets the owner's error to NOERROR |
| Events.EventModNoFlags | src/api-event.c:141-152 | an EventInfo with no flags succeeds and leaves the event unchanged |
| Events.EventModIdempotent | src/api-event.c:141-152 | applying the same modification twice gives the same event as applying it once |
| Events.Due | src/api-event.c:165 | an event runs on a pass when its interval is 0 or the interval has elapsed since its last run; TickOutcomes states the consequences |
| Events.SurvivorIds | src/api-event.c:161-180 | every event left after a pass was in the list before the pass |
| Events.DoEvents | src/api-event.c:156-181 | the pass visits every original event once, in list order, even while deleting the node it stands on; the list afterwards and the callbacks fired are exactly those of handling each event on its own |
| Events.Visit | src/api-event.c:163-179 | one loop step: a marked or exhausted event is unlinked and the walk continues with its successor; a due event fires and has its positive count decremented; any other event is left alone |
| Events.TickIsPerEvent | src/api-event.c:161-180 | an event's fate in a pass depends on that event alone and not on the others in the list |
| Events.TickOutcomes | src/api-event.c:163-178 | a marked event is removed without firing; a due event fires once; an event that is not due stays unchanged; a due event with count 1 is removed, one with a larger count is kept with the count one lower, one with count 0 is kept as is; an interval of 0 always fires |
| Events.MarkDelThenTick | src/api-event.c:86-90 | after EventMarkDel the next pass removes the event without calling it, and the event after it is handled as usual |

## Left out

* Module load, init and unload, SipHash key generation and the configuration hooks are not
  modelled. The hash function is an uninterpreted parameter applied to the lower-cased name.
* Memory allocation and freeing (`safe_alloc`, `safe_free`, `free_message_tags`) are not
  modelled. Values are immutable, so there is nothing to free.
* `gettimeofday`, `gmtime`, `snprintf` and `server_time_to_unix_time` become the
  `TimeSource` parameter. `TStime()` becomes the `now` argument. The exact `time` tag
  format is therefore not modelled.
* Outgoing messages (`sendto_one`) are a returned trace of `Out` values. `HasCapability`
  becomes two booleans on `Client`. `generate_batch_id` becomes the `batchId` argument.
* Callers pass a `HistoryFilter`, but `hbm_history_request` never reads it and always
  replays the whole log, so the model takes no filter.
* Line stamps of 0 are excluded by a premise (`NonZero`) in the invariant lemmas, because
  `oldest_t` uses 0 as "no lines". `ZeroStampBreaksCache` shows what goes wrong otherwise.
* OBJECTLEN comes from headers that are not part of this model. It is taken as 32. The
  invariant lemmas about adding require names that fit. `LongNameNeverFound` states what
  happens to longer names.
* HistoryMem.Truncate: a `char` of a name stands for one byte of the C string, so the cut
  at OBJECTLEN counts bytes only for single-byte names; multi-byte UTF-8 encoding is not
  modelled.
* HistoryMem.Retain: its own contract gives only the name; the lines and caches are stated
  by `RetainKeeps`, `RetainConsistent` and `RetainOnlyNewer` for consistent logs.
* HistoryMem.HistoryAdd: its own contract gives only chain lengths; what the target's object
  becomes is stated by `HistoryAddFinds`, for names that fit in OBJECTLEN.
* HistoryMem.HistoryRequest: its own contract gives only the return code and the empty
  failure trace; the shape of the replay is stated by `ReplayBatchedFrame`,
  `ReplayBatchedLines` and `ReplayPlain`.
* The module object bookkeeping in `EventAdd` and `EventDel` (the `ModuleObject` list of the
  owning module) is not modelled. `ircd_log` is not modelled. `SetupEvents` is not
  modelled: it only calls `EventAdd` with constants.
* Events.DoEvents: the callbacks' own effects are not modelled. A callback that adds or
  deletes events during the pass is out of scope. Each call is recorded as a `Firing`.
* `minimum_msec_since_last_run` is the `elapsed` parameter. Updating `last_run` happens
  inside that helper, which is not part of this model, so `lastRun` is left unchanged by a
  pass.
* `EventAdd` rejects a NULL name but accepts an empty one. The model follows the code.
* `EventMarkDel` and `EventMod` work on an event pointer. The model takes the list and an
  identity (`EventMarkDel`) or the event value itself (`EventMod`).

=== FILE: events.dfy ===
/** The periodic event scheduler of the IRC daemon (src/api-event.c).

    The scheduler keeps one list of events, newest first. Each main-loop
    iteration runs one pass over it (DoEvents) that fires the events that are
    due and unlinks the ones that are finished, while walking the list it is
    deleting from. Events are identified by `id`, the model of their address. */
module Events {
  import opened Wrappers

  type EventId = nat

  /** The identity of an EVENT() function pointer. */
  type CallbackRef = nat

  /** The identity of the module owning an event. */
  type ModuleRef = nat

  /** EventAdd raises every interval below this many milliseconds to it. */
  const MinimumInterval: int := 100

  /** An event: `count` is -1 for "delete on the next pass", 0 for "forever",
      and otherwise the number of runs left; `everyMsec` 0 means "every pass".
      `data` stands for the opaque pointer handed to the callback. */
  datatype Event = Event(id: EventId, name: string, everyMsec: int, count: int,
                         callback: CallbackRef, data: nat, lastRun: int, owner: Option<ModuleRef>)

  /** The module error codes EventAdd and EventMod leave in `module->errorcode`. */
  datatype ModErr = ModErrInvalid | ModErrNoError

  /** The result of EventAdd: the new list, the new event (None for NULL) and
      the error code stored in the owning module, if there is one. */
  datatype Added = Added(events: seq<Event>, event: Option<Event>, moduleError: Option<ModErr>)

  /** The result of EventDel: the new list and the event that followed the
      deleted one (None for NULL). */
  datatype Deleted = Deleted(events: seq<Event>, next: Option<Event>)

  /** The flag bits of an EventInfo. */
  datatype ModField = ModEvery | ModHowMany | ModName | ModCallback | ModData

  /** EventInfo: which fields to change, and their new values. */
  datatype EventInfo = EventInfo(flags: set<ModField>, everyMsec: int, count: int,
                                 name: string, callback: CallbackRef, data: nat)

  /** The result of EventMod: the event afterwards, the return code and the
      error code stored in the owning module, if there is one. */
  datatype Modified = Modified(event: Option<Event>, rc: int, ownerError: Option<ModErr>)

  /** One call of an event's callback with its data. */
  datatype Firing = Firing(id: EventId, callback: CallbackRef, data: nat)

  /** Distinct list nodes have distinct ids. */
  predicate UniqueIds(events: seq<Event>)
  {
    forall i, j :: 0 <= i < j < |events| ==> events[i].id != events[j].id
  }

  /** The ids of a list, in list order. */
  function IdSeq(events: seq<Event>): seq<EventId>
  {
    if events == [] then [] else IdSeq(events[..|events| - 1]) + [events[|events| - 1].id]
  }

  // ---------------------------------------------------------------------------
  // EventAdd
  // ---------------------------------------------------------------------------

  /** An id larger than every id in the list: the model of a fresh allocation. */
  function FreshId(events: seq<Event>): (r: EventId)
    ensures forall e :: e in events ==> e.id < r
  {
    if events == [] then 0
    else
      var rest := FreshId(events[1..]);
      assert forall e :: e in events ==> e == events[0] || e in events[1..];
      if events[0].id < rest then rest else events[0].id + 1
  }

  /** EventAdd: reject a NULL name or callback and a negative interval or count;
      otherwise raise a too small interval to the minimum and link the new
      event at the head of the list. */
  function EventAdd(events: seq<Event>, owner: Option<ModuleRef>, name: Option<string>,
                    callback: Option<CallbackRef>, data: nat, everyMsec: int, count: int, now: int): (r: Added)
    ensures r.event.None? <==> name.None? || everyMsec < 0 || count < 0 || callback.None?
    ensures r.event.None? ==> r.events == events
    ensures owner.None? ==> r.moduleError.None?
    ensures owner.Some? && r.event.None? ==> r.moduleError == Some(ModErrInvalid)
    ensures owner.Some? && r.event.Some? ==> r.moduleError == Some(ModErrNoError)
    ensures r.event.Some? ==>
              var e := r.event.value;
              && r.events == [e] + events
              && (forall x :: x in events ==> x.id != e.id)
              && e.name == name.value && e.count == count && e.callback == callback.value
              && e.data == data && e.lastRun == now && e.owner == owner
    ensures r.event.Some? ==> r.event.value.everyMsec == Max(everyMsec, MinimumInterval)
  {
    if name.None? || everyMsec < 0 || count < 0 || callback.None? then
      Added(events, None, if owner.Some? then Some(ModErrInvalid) else None)
    else
      var every := if everyMsec < MinimumInterval then MinimumInterval else everyMsec;
      var e := Event(FreshId(events), name.value, every, count, callback.value, data, now, owner);
      Added([e] + events, Some(e), if owner.Some? then Some(ModErrNoError) else None)
  }

  /** EventAdd keeps the ids of the list distinct. */
  lemma {:induction false} EventAddKeepsUnique(events: seq<Event>, owner: Option<ModuleRef>, name: Option<string>,
                            callback: Option<CallbackRef>, data: nat, everyMsec: int, count: int, now: int)
    requires UniqueIds(events)
    ensures UniqueIds(EventAdd(events, owner, name, callback, data, everyMsec, count, now).events)
  {
    var r := EventAdd(events, owner, name, callback, data, everyMsec, count, now);
    if r.event.Some? {
      forall i, j | 0 <= i < j < |r.events|
        ensures r.events[i].id != r.events[j].id
      {
        assert r.events[j] == events[j - 1];
        if i > 0 {
          assert r.events[i] == events[i - 1];
        } else {
          assert events[j - 1] in events;
        }
      }
    }
  }

  // ---------------------------------------------------------------------------
  // EventMarkDel, EventDel, EventFind, EventMod
  // ---------------------------------------------------------------------------

  /** EventMarkDel on the event with the given id: its count becomes -1 and
      nothing else changes. */
  function EventMarkDel(events: seq<Event>, id: EventId): (r: seq<Event>)
    ensures |r| == |events|
    ensures forall i :: 0 <= i < |events| && events[i].id == id ==>
              r[i].count == -1 && r[i] == events[i].(count := -1)
    ensures forall i :: 0 <= i < |events| && events[i].id != id ==> r[i] == events[i]
  {
    seq(|events|, i requires 0 <= i < |events| =>
      if events[i].id == id then events[i].(count := -1) else events[i])
  }

  /** The position of the event with the given id: the walk `p == event`. */
  function Position(events: seq<Event>, id: EventId): (r: Option<nat>)
    ensures r.Some? ==> r.value < |events| && events[r.value].id == id
    ensures r.Some? ==> forall j :: 0 <= j < r.value ==> events[j].id != id
    ensures r.None? ==> forall j :: 0 <= j < |events| ==> events[j].id != id
  {
    if events == [] then None
    else if events[0].id == id then Some(0)
    else match Position(events[1..], id)
      case None => None
      case Some(j) => Some(j + 1)
  }

  /** EventDel: unlink the event and return the one that followed it; an event
      that is not in the list gives NULL and no change. */
  function EventDel(events: seq<Event>, id: EventId): (r: Deleted)
    ensures Position(events, id).None? ==> r.events == events && r.next.None?
    ensures Position(events, id).Some? ==>
              var i := Position(events, id).value;
              && |r.events| == |events| - 1
              && r.events[..i] == events[..i]
              && r.events[i..] == events[i + 1..]
              && r.next == (if i + 1 < |events| then Some(events[i + 1]) else None)
  {
    match Position(events, id)
    case None => Deleted(events, None)
    case Some(i) =>
      var rest := events[..i] + events[i + 1..];
      assert rest[i..] == events[i + 1..];
      Deleted(rest, if i + 1 < |events| then Some(events[i + 1]) else None)
  }

  /** In a list of distinct events EventDel removes exactly the given one: the
      others all stay, still distinct. */
  lemma {:induction false} EventDelRemovesExactly(events: seq<Event>, id: EventId)
    requires UniqueIds(events)
    ensures var r := EventDel(events, id).events;
            && UniqueIds(r)
            && (forall e :: e in r ==> e in events && e.id != id)
            && (forall e :: e in events && e.id != id ==> e in r)
  {
    match Position(events, id)
    case None =>
    case Some(i) =>
      assert EventDel(events, id).events == events[..i] + events[i + 1..];
      CutUnique(events, i);
      CutMembers(events, i);
  }

  lemma {:induction false} CutUnique(events: seq<Event>, i: nat)
    requires UniqueIds(events) && i < |events|
    ensures UniqueIds(events[..i] + events[i + 1..])
  {
    var r := events[..i] + events[i + 1..];
    forall a, b | 0 <= a < b < |r|
      ensures r[a].id != r[b].id
    {
      CutIndex(events, i, a);
      CutIndex(events, i, b);
    }
  }

  lemma {:induction false} CutMembers(events: seq<Event>, i: nat)
    requires UniqueIds(events) && i < |events|
    ensures forall e :: e in events[..i] + events[i + 1..] ==> e in events && e.id != events[i].id
    ensures forall e :: e in events && e.id != events[i].id ==> e in events[..i] + events[i + 1..]
  {
    var r := events[..i] + events[i + 1..];
    forall e | e in r
      ensures e in events && e.id != events[i].id
    {
      var k :| 0 <= k < |r| && r[k] == e;
      CutIndex(events, i, k);
    }
    forall e | e in events && e.id != events[i].id
      ensures e in r
    {
      var k :| 0 <= k < |events| && events[k] == e;
      if k < i {
        CutIndex(events, i, k);
      } else {
        CutIndex(events, i, k - 1);
      }
    }
  }

  /** EventFind: the first event in list order with exactly this name. */
  function EventFind(events: seq<Event>, name: string): (r: Option<Event>)
    ensures r.Some? ==> exists i :: 0 <= i < |events| && events[i] == r.value &&
                          r.value.name == name && forall j :: 0 <= j < i ==> events[j].name != name
    ensures r.None? ==> forall e :: e in events ==> e.name != name
  {
    if events == [] then None
    else if events[0].name == name then
      Some(events[0])
    else
      var r := EventFind(events[1..], name);
      assert forall e :: e in events ==> e == events[0] || e in events[1..];
      if r.Some? then
        var i :| 0 <= i < |events[1..]| && events[1..][i] == r.value &&
                 r.value.name == name && forall j :: 0 <= j < i ==> events[1..][j].name != name;
        assert events[i + 1] == r.value;
        r
      else r
  }

  /** EventMod: -1 and no change when the event or the request is NULL;
      otherwise 0, with exactly the flagged fields replaced. */
  function EventMod(event: Option<Event>, mods: Option<EventInfo>): (r: Modified)
    ensures r.rc == -1 <==> event.None? || mods.None?
    ensures r.rc != -1 ==> r.rc == 0
    ensures r.rc == -1 ==> r.event == event
    ensures r.rc == -1 ==>
              r.ownerError == (if event.Some? && event.value.owner.Some? then Some(ModErrInvalid) else None)
    ensures r.rc == 0 ==>
              r.ownerError == (if event.value.owner.Some? then Some(ModErrNoError) else None)
    ensures r.rc == 0 ==>
              var e, m := event.value, mods.value;
              && r.event.Some?
              && r.event.value.id == e.id
              && r.event.value.lastRun == e.lastRun
              && r.event.value.owner == e.owner
              && r.event.value.everyMsec == (if ModEvery in m.flags then m.everyMsec else e.everyMsec)
              && r.event.value.count == (if ModHowMany in m.flags then m.count else e.count)
              && r.event.value.name == (if ModName in m.flags then m.name else e.name)
              && r.event.value.callback == (if ModCallback in m.flags then m.callback else e.callback)
              && r.event.value.data == (if ModData in m.flags then m.data else e.data)
  {
    if event.None? || mods.None? then
      Modified(event, -1, if event.Some? && event.value.owner.Some? then Some(ModErrInvalid) else None)
    else
      var e, m := event.value, mods.value;
      var e1 := if ModEvery in m.flags then e.(everyMsec := m.everyMsec) else e;
      var e2 := if ModHowMany in m.flags then e1.(count := m.count) else e1;
      var e3 := if ModName in m.flags then e2.(name := m.name) else e2;
      var e4 := if ModCallback in m.flags then e3.(callback := m.callback) else e3;
      var e5 := if ModData in m.flags then e4.(data := m.data) else e4;
      Modified(Some(e5), 0, if e.owner.Some? then Some(ModErrNoError) else None)
  }

  /** A request with no flag set changes nothing but still succeeds. */
  lemma {:induction false} EventModNoFlags(e: Event, m: EventInfo)
    requires m.flags == {}
    ensures EventMod(Some(e), Some(m)).event == Some(e)
    ensures EventMod(Some(e), Some(m)).rc == 0
  {
  }

  /** Applying the same request twice is the same as applying it once. */
  lemma {:induction false} EventModIdempotent(e: Event, m: EventInfo)
    ensures var once := EventMod(Some(e), Some(m)).event;
            EventMod(once, Some(m)).event == once
  {
  }

  // ---------------------------------------------------------------------------
  // DoEvents
  // ---------------------------------------------------------------------------

  /** Whether an event runs on this pass: always when its interval is 0,
      otherwise when `elapsed(lastRun, everyMsec)` (minimum_msec_since_last_run)
      says the interval has passed. */
  predicate Due(e: Event, elapsed: (int, int) -> bool)
  {
    e.everyMsec == 0 || elapsed(e.lastRun, e.everyMsec)
  }

  /** What remains of one event after the pass visits it: nothing when it was
      marked for deletion or ran its last time; itself with one run fewer when
      it ran with runs left; itself otherwise. */
  function Survivor(e: Event, elapsed: (int, int) -> bool): seq<Event>
  {
    if e.count == -1 then []
    else if Due(e, elapsed) && e.count > 0 then
      if e.count - 1 == 0 then [] else [e.(count := e.count - 1)]
    else [e]
  }

  /** The callback calls one event contributes to the pass. */
  function Fires(e: Event, elapsed: (int, int) -> bool): seq<Firing>
  {
    if e.count != -1 && Due(e, elapsed) then [Firing(e.id, e.callback, e.data)] else []
  }

  /** The intended outcome of a pass: each event, in list order, visited once. */
  function Survivors(events: seq<Event>, elapsed: (int, int) -> bool): seq<Event>
  {
    if events == [] then []
    else Survivors(events[..|events| - 1], elapsed) + Survivor(events[|events| - 1], elapsed)
  }

  function Firings(events: seq<Event>, elapsed: (int, int) -> bool): seq<Firing>
  {
    if events == [] then []
    else Firings(events[..|events| - 1], elapsed) + Fires(events[|events| - 1], elapsed)
  }

  /** Every survivor of a pass carries the id of some event of the list. */
  lemma {:induction false} SurvivorIds(events: seq<Event>, elapsed: (int, int) -> bool)
    ensures forall x :: x in Survivors(events, elapsed) ==>
              exists j :: 0 <= j < |events| && events[j].id == x.id
  {
    if events != [] {
      var init := events[..|events| - 1];
      SurvivorIds(init, elapsed);
      forall x | x in Survivors(events, elapsed)
        ensures exists j :: 0 <= j < |events| && events[j].id == x.id
      {
        if x in Survivors(init, elapsed) {
          var j :| 0 <= j < |init| && init[j].id == x.id;
          assert events[j].id == x.id;
        } else {
          assert events[|events| - 1].id == x.id;
        }
      }
    }
  }

  /** The id of the event a cursor points at, None for NULL. */
  function IdOf(e: Option<Event>): Option<EventId>
  {
    if e.Some? then Some(e.value.id) else None
  }

  /** `eventptr->next` for the event at position i. */
  function Next(events: seq<Event>, i: nat): Option<EventId>
  {
    if i + 1 < |events| then Some(events[i + 1].id) else None
  }

  /** DoEvents: walk the list from its head with a cursor; an event marked for
      deletion is unlinked, a due event fires and, when its last run is spent,
      is unlinked; after an unlink the walk resumes at the successor EventDel
      returns. `fired` records the callback calls and `visited` the events the
      cursor stood on. Every event present at the start is visited once, in
      order, and the list and the calls are those of visiting each in turn. */
  method DoEvents(events: seq<Event>, elapsed: (int, int) -> bool)
    returns (after: seq<Event>, fired: seq<Firing>, visited: seq<EventId>)
    requires UniqueIds(events)
    ensures visited == IdSeq(events)
    ensures after == Survivors(events, elapsed)
    ensures fired == Firings(events, elapsed)
  {
    var list := events;
    var cur: Option<EventId> := if |list| > 0 then Some(list[0].id) else None;
    fired := [];
    visited := [];
    ghost var k := 0;
    while cur.Some?
      invariant 0 <= k <= |events|
      invariant list == Survivors(events[..k], elapsed) + events[k..]
      invariant fired == Firings(events[..k], elapsed)
      invariant visited == IdSeq(events[..k])
      invariant cur == (if k < |events| then Some(events[k].id) else None)
      decreases |events| - k
    {
      CursorAt(events, elapsed, k, list);
      var i := Position(list, cur.value).value;
      visited := visited + [list[i].id];
      ghost var before := list;
      var call;
      list, cur, call := Visit(list, i, elapsed);
      StepKeeps(events, elapsed, k, before, list, call);
      fired := fired + call;
      k := k + 1;
    }
    assert events[..k] == events;
    after := list;
  }

  /** One visit of the pass, at position i: unlink the event when it is marked
      for deletion; otherwise, when it is due, call it and count one run down,
      unlinking it when that was its last. `next` is where the walk goes on. */
  method Visit(list: seq<Event>, i: nat, elapsed: (int, int) -> bool)
    returns (list': seq<Event>, next: Option<EventId>, call: seq<Firing>)
    requires i < |list|
    requires forall j :: 0 <= j < i ==> list[j].id != list[i].id
    ensures list' == list[..i] + Survivor(list[i], elapsed) + list[i + 1..]
    ensures call == Fires(list[i], elapsed)
    ensures next == (if i + 1 < |list| then Some(list[i + 1].id) else None)
  {
    var e := list[i];
    call := [];
    if e.count == -1 {
      DelAt(list, i);
      var d := EventDel(list, e.id);
      list', next := d.events, IdOf(d.next);
      assert Survivor(e, elapsed) == [] && Fires(e, elapsed) == [];
      assert list' == list[..i] + [] + list[i + 1..];
    } else if Due(e, elapsed) {
      call := [Firing(e.id, e.callback, e.data)];
      assert Fires(e, elapsed) == call;
      if e.count > 0 {
        var e' := e.(count := e.count - 1);
        var mid := list[i := e'];
        Around(list, i, e');
        if e'.count == 0 {
          DelAt(mid, i);
          var d := EventDel(mid, e'.id);
          list', next := d.events, IdOf(d.next);
          assert Survivor(e, elapsed) == [];
          assert list' == list[..i] + [] + list[i + 1..];
        } else {
          list', next := mid, Next(mid, i);
          assert Survivor(e, elapsed) == [e'];
        }
      } else {
        Around(list, i, e);
        list', next := list, Next(list, i);
        assert Survivor(e, elapsed) == [e];
      }
    } else {
      Around(list, i, e);
      list', next := list, Next(list, i);
      assert Survivor(e, elapsed) == [e] && Fires(e, elapsed) == [];
    }
  }

  /** Replacing the node at position i, seen as three pieces. */
  lemma Around(list: seq<Event>, i: nat, x: Event)
    requires i < |list|
    ensures list[i := x] == list[..i] + [x] + list[i + 1..]
    ensures list[i := x][..i] == list[..i] && list[i := x][i + 1..] == list[i + 1..]
    ensures list[i := x][i] == x
    ensures list == list[..i] + [list[i]] + list[i + 1..]
  {
  }

  /** At the start of a visit the cursor's node sits right after the survivors
      of the nodes already visited, and no node before it has its id. */
  lemma {:induction false} CursorAt(events: seq<Event>, elapsed: (int, int) -> bool, k: nat, list: seq<Event>)
    requires UniqueIds(events) && k < |events|
    requires list == Survivors(events[..k], elapsed) + events[k..]
    ensures var i := |Survivors(events[..k], elapsed)|;
            && Position(list, events[k].id) == Some(i)
            && list[i] == events[k]
            && (forall j :: 0 <= j < i ==> list[j].id != list[i].id)
  {
    var done := Survivors(events[..k], elapsed);
    DoneIdsDiffer(events, elapsed, k);
    PositionAfter(done, events[k..], events[k].id);
  }

  /** After the visit the list and the calls are those of the reference with
      one more node, and the cursor's successor is the next original node. */
  lemma {:induction false} StepKeeps(events: seq<Event>, elapsed: (int, int) -> bool, k: nat,
                  list: seq<Event>, list': seq<Event>, call: seq<Firing>)
    requires k < |events|
    requires list == Survivors(events[..k], elapsed) + events[k..]
    requires var i := |Survivors(events[..k], elapsed)|;
             && i < |list|
             && list' == list[..i] + Survivor(list[i], elapsed) + list[i + 1..]
             && call == Fires(list[i], elapsed)
    ensures list' == Survivors(events[..k + 1], elapsed) + events[k + 1..]
    ensures Firings(events[..k], elapsed) + call == Firings(events[..k + 1], elapsed)
    ensures IdSeq(events[..k]) + [list[|Survivors(events[..k], elapsed)|].id] == IdSeq(events[..k + 1])
    ensures var i := |Survivors(events[..k], elapsed)|;
            (if i + 1 < |list| then Some(list[i + 1].id) else None) ==
            (if k + 1 < |events| then Some(events[k + 1].id) else None)
  {
    var done := Survivors(events[..k], elapsed);
    PassStep(events, elapsed, k);
    SplitAt(done, events[k..]);
    assert events[k..][1..] == events[k + 1..];
    var i := |done|;
    assert k + 1 < |events| ==> list[i + 1] == events[k..][1] == events[k + 1];
  }

  /** The pieces of a list around the node that follows `done`. */
  lemma SplitAt(done: seq<Event>, rest: seq<Event>)
    requires rest != []
    ensures (done + rest)[..|done|] == done
    ensures (done + rest)[|done|] == rest[0]
    ensures (done + rest)[|done| + 1..] == rest[1..]
  {
  }

  /** One more visit extends the reference outcome by that event's own. */
  lemma {:induction false} PassStep(events: seq<Event>, elapsed: (int, int) -> bool, k: nat)
    requires k < |events|
    ensures Survivors(events[..k + 1], elapsed) == Survivors(events[..k], elapsed) + Survivor(events[k], elapsed)
    ensures Firings(events[..k + 1], elapsed) == Firings(events[..k], elapsed) + Fires(events[k], elapsed)
    ensures IdSeq(events[..k + 1]) == IdSeq(events[..k]) + [events[k].id]
  {
    assert events[..k + 1][..k] == events[..k];
  }

  /** No survivor of the events already visited carries the id of the next. */
  lemma {:induction false} DoneIdsDiffer(events: seq<Event>, elapsed: (int, int) -> bool, k: nat)
    requires UniqueIds(events)
    requires k < |events|
    ensures forall x :: x in Survivors(events[..k], elapsed) ==> x.id != events[k].id
  {
    SurvivorIds(events[..k], elapsed);
    forall x | x in Survivors(events[..k], elapsed)
      ensures x.id != events[k].id
    {
      var j :| 0 <= j < k && events[..k][j].id == x.id;
      assert events[j].id == x.id;
    }
  }

  /** The walk `p == event` stops at the first node of `rest` when no node
      before it has that id. */
  lemma {:induction false} PositionAfter(done: seq<Event>, rest: seq<Event>, id: EventId)
    requires forall x :: x in done ==> x.id != id
    requires rest != [] && rest[0].id == id
    ensures Position(done + rest, id) == Some(|done|)
  {
    var s := done + rest;
    assert s[|done|] == rest[0];
    forall j | 0 <= j < |done|
      ensures s[j].id != id
    {
      assert s[j] == done[j];
      assert done[j] in done;
    }
  }

  /** EventDel on the node at position i, when no node before it has its id,
      unlinks it and returns its successor. */
  lemma {:induction false} DelAt(list: seq<Event>, i: nat)
    requires i < |list|
    requires forall j :: 0 <= j < i ==> list[j].id != list[i].id
    ensures EventDel(list, list[i].id) ==
              Deleted(list[..i] + list[i + 1..], if i + 1 < |list| then Some(list[i + 1]) else None)
  {
    var done, rest := list[..i], list[i..];
    assert list == done + rest;
    assert rest[0] == list[i];
    forall x | x in done
      ensures x.id != list[i].id
    {
      var j :| 0 <= j < i && done[j] == x;
    }
    PositionAfter(done, rest, list[i].id);
  }

  // ---------------------------------------------------------------------------
  // What one pass does to each event
  // ---------------------------------------------------------------------------

  /** The survivors carrying a given id. */
  function WithId(events: seq<Event>, id: EventId): seq<Event>
  {
    if events == [] then []
    else WithId(events[..|events| - 1], id) + (if events[|events| - 1].id == id then [events[|events| - 1]] else [])
  }

  /** The callback calls made for a given id. */
  function FiredFor(fired: seq<Firing>, id: EventId): seq<Firing>
  {
    if fired == [] then []
    else FiredFor(fired[..|fired| - 1], id) + (if fired[|fired| - 1].id == id then [fired[|fired| - 1]] else [])
  }

  lemma {:induction false} WithIdAppend(a: seq<Event>, b: seq<Event>, id: EventId)
    ensures WithId(a + b, id) == WithId(a, id) + WithId(b, id)
    decreases |b|
  {
    if b == [] {
      assert a + b == a;
    } else {
      var b' := b[..|b| - 1];
      assert (a + b)[..|a + b| - 1] == a + b';
      WithIdAppend(a, b', id);
    }
  }

  lemma {:induction false} FiredForAppend(a: seq<Firing>, b: seq<Firing>, id: EventId)
    ensures FiredFor(a + b, id) == FiredFor(a, id) + FiredFor(b, id)
    decreases |b|
  {
    if b == [] {
      assert a + b == a;
    } else {
      var b' := b[..|b| - 1];
      assert (a + b)[..|a + b| - 1] == a + b';
      FiredForAppend(a, b', id);
    }
  }

  /** In a list of distinct events, a pass treats each event on its own: what
      survives of it and which calls it gets are exactly those of visiting it
      once. No event is skipped, none is visited twice. */
  lemma {:induction false} TickIsPerEvent(events: seq<Event>, elapsed: (int, int) -> bool, k: nat)
    requires UniqueIds(events)
    requires k < |events|
    ensures WithId(Survivors(events, elapsed), events[k].id) == Survivor(events[k], elapsed)
    ensures FiredFor(Firings(events, elapsed), events[k].id) == Fires(events[k], elapsed)
    decreases |events|
  {
    var n := |events|;
    var init := events[..n - 1];
    var id := events[k].id;
    SplitLast(events, elapsed, id);
    if k == n - 1 {
      forall j | 0 <= j < |init|
        ensures init[j].id != id
      {
        assert init[j] == events[j];
      }
      NotInSurvivors(init, elapsed, id);
      NotFired(init, elapsed, id);
    } else {
      UniqueInit(events);
      assert init[k] == events[k];
      TickIsPerEvent(init, elapsed, k);
    }
  }

  /** The outcome of a pass seen from one id: that of all but the last node,
      then that of the last. */
  lemma {:induction false} SplitLast(events: seq<Event>, elapsed: (int, int) -> bool, id: EventId)
    requires events != []
    ensures var init, last := events[..|events| - 1], events[|events| - 1];
            && WithId(Survivors(events, elapsed), id) ==
                 WithId(Survivors(init, elapsed), id) + (if last.id == id then Survivor(last, elapsed) else [])
            && FiredFor(Firings(events, elapsed), id) ==
                 FiredFor(Firings(init, elapsed), id) + (if last.id == id then Fires(last, elapsed) else [])
  {
    var init, last := events[..|events| - 1], events[|events| - 1];
    WithIdAppend(Survivors(init, elapsed), Survivor(last, elapsed), id);
    FiredForAppend(Firings(init, elapsed), Fires(last, elapsed), id);
    OwnVisit(last, elapsed, id);
  }

  lemma UniqueInit(events: seq<Event>)
    requires UniqueIds(events) && events != []
    ensures UniqueIds(events[..|events| - 1])
    ensures forall j :: 0 <= j < |events| - 1 ==> events[j].id != events[|events| - 1].id
  {
  }

  /** What one visit leaves and calls, seen from a given id. */
  lemma {:induction false} OwnVisit(e: Event, elapsed: (int, int) -> bool, id: EventId)
    ensures WithId(Survivor(e, elapsed), id) == if e.id == id then Survivor(e, elapsed) else []
    ensures FiredFor(Fires(e, elapsed), id) == if e.id == id then Fires(e, elapsed) else []
  {
    var s, f := Survivor(e, elapsed), Fires(e, elapsed);
    if s != [] {
      assert s[..|s| - 1] == [];
    }
    if f != [] {
      assert f[..|f| - 1] == [];
    }
  }

  /** An id that no event of the list carries survives nowhere. */
  lemma {:induction false} NotInSurvivors(events: seq<Event>, elapsed: (int, int) -> bool, id: EventId)
    requires forall j :: 0 <= j < |events| ==> events[j].id != id
    ensures WithId(Survivors(events, elapsed), id) == []
  {
    var s := Survivors(events, elapsed);
    SurvivorIds(events, elapsed);
    NoneWithId(s, id);
  }

  lemma {:induction false} NoneWithId(s: seq<Event>, id: EventId)
    requires forall x :: x in s ==> x.id != id
    ensures WithId(s, id) == []
  {
    if s != [] {
      NoneWithId(s[..|s| - 1], id);
    }
  }

  /** An id that no event of the list carries is never fired. */
  lemma {:induction false} NotFired(events: seq<Event>, elapsed: (int, int) -> bool, id: EventId)
    requires forall j :: 0 <= j < |events| ==> events[j].id != id
    ensures FiredFor(Firings(events, elapsed), id) == []
  {
    if events != [] {
      var f := Fires(events[|events| - 1], elapsed);
      NotFired(events[..|events| - 1], elapsed, id);
      FiredForAppend(Firings(events[..|events| - 1], elapsed), f, id);
      OwnVisit(events[|events| - 1], elapsed, id);
    }
  }

  /** The outcomes of a pass, event by event. */
  lemma {:induction false} TickOutcomes(events: seq<Event>, elapsed: (int, int) -> bool, k: nat)
    requires UniqueIds(events)
    requires k < |events|
    ensures var e, id := events[k], events[k].id;
            var kept, calls := WithId(Survivors(events, elapsed), id), FiredFor(Firings(events, elapsed), id);
            && (e.count == -1 ==> kept == [] && calls == [])
            && (e.count != -1 && Due(e, elapsed) ==> calls == [Firing(id, e.callback, e.data)])
            && (e.count != -1 && !Due(e, elapsed) ==> kept == [e] && calls == [])
            && (Due(e, elapsed) && e.count == 1 ==> kept == [])
            && (Due(e, elapsed) && e.count > 1 ==> kept == [e.(count := e.count - 1)])
            && (Due(e, elapsed) && e.count == 0 ==> kept == [e])
            && (e.everyMsec == 0 && e.count != -1 ==> |calls| == 1)
  {
    TickIsPerEvent(events, elapsed, k);
  }

  /** Marking an event for deletion and running a pass removes it without a
      call, and the event after it is still visited as if nothing happened. */
  lemma {:induction false} MarkDelThenTick(events: seq<Event>, elapsed: (int, int) -> bool, k: nat)
    requires UniqueIds(events)
    requires k < |events|
    ensures var m := EventMarkDel(events, events[k].id);
            WithId(Survivors(m, elapsed), events[k].id) == [] &&
            FiredFor(Firings(m, elapsed), events[k].id) == []
    ensures var m := EventMarkDel(events, events[k].id);
            k + 1 < |events| ==>
              WithId(Survivors(m, elapsed), events[k + 1].id) == Survivor(events[k + 1], elapsed) &&
              FiredFor(Firings(m, elapsed), events[k + 1].id) == Fires(events[k + 1], elapsed)
  {
    var m := EventMarkDel(events, events[k].id);
    assert forall i :: 0 <= i < |m| ==> m[i].id == events[i].id;
    TickIsPerEvent(m, elapsed, k);
    if k + 1 < |events| {
      TickIsPerEvent(m, elapsed, k + 1);
    }
  }
}

=== FILE: history_mem.dfy ===
/** The in-memory history backend of the IRC daemon (src/modules/history_backend_mem.c).

    A fixed-size hash index maps case-insensitive target names (channels and users)
    to log objects. Each log object holds its lines oldest first and caches two values:
    the number of lines and the oldest timestamp, where 0 stands for "no lines".
    Every operation is a pure function from the old index to the new one. */
module HistoryMem {
  import opened Wrappers

  /** HISTORY_BACKEND_MEM_HASH_TABLE_SIZE: the number of hash buckets. */
  const TableSize: nat := 1019

  /** OBJECTLEN, the capacity of a stored object name (without the terminator).
      It is the larger of NICKLEN and CHANNELLEN; the value only matters for the
      truncation lemma, which holds for any value. */
  const ObjectLen: nat := 32

  /** A message tag, e.g. `time=2020-01-01T00:00:00.000Z` or `batch=abc`. */
  datatype Tag = Tag(name: string, value: string)

  /** One stored line: its timestamp `t`, its own copy of the tags and the raw text. */
  datatype Line = Line(t: int, tags: seq<Tag>, text: string)

  /** A per-target log with its two cached fields `numLines` and `oldestT`. */
  datatype Object = Object(name: string, lines: seq<Line>, numLines: int, oldestT: int)

  /** The hash table: bucket number to chain of objects, head first. A bucket
      missing from the map is an empty chain. */
  datatype Index = Index(buckets: map<nat, seq<Object>>)

  /** The keyed SipHash over an already lower-cased name. The key is generated at
      module load, so the hash is left uninterpreted. */
  type SipHash = string -> nat

  /** The wall clock as the time-tag code sees it: `clockTag` is the current time
      already formatted as a `time` tag value, `parse` is server_time_to_unix_time. */
  datatype TimeSource = TimeSource(clockTag: string, parse: string -> int)

  /** A reference to an object: the index it lives in and its position in its chain. */
  datatype Handle = Handle(idx: Index, pos: nat)

  /** What a public operation returns: the new index and the C return code. */
  datatype Outcome = Outcome(idx: Index, rc: int)

  // ---------------------------------------------------------------------------
  // Names: strcasecmp and strlcpy
  // ---------------------------------------------------------------------------

  /** tolower in the C locale. */
  function Lower(c: char): char
  {
    if 'A' <= c <= 'Z' then (c as int + 32) as char else c
  }

  function Fold(s: string): string
  {
    seq(|s|, i requires 0 <= i < |s| => Lower(s[i]))
  }

  /** strcasecmp(a, b) == 0 */
  predicate SameName(a: string, b: string)
  {
    Fold(a) == Fold(b)
  }

  /** strlcpy into a buffer of OBJECTLEN+1 bytes keeps at most ObjectLen bytes;
      each `char` of a name stands for one byte of the C string. */
  function Truncate(name: string): (r: string)
    ensures |r| <= ObjectLen
    ensures |r| <= |name| && r == name[..|r|]
    ensures |name| <= ObjectLen ==> r == name
    ensures |name| > ObjectLen ==> |r| == ObjectLen
  {
    if |name| <= ObjectLen then name else name[..ObjectLen]
  }

  // ---------------------------------------------------------------------------
  // The hash index
  // ---------------------------------------------------------------------------

  /** hbm_hash: the bucket of a name. Case-insensitive because the hash is taken
      over the folded name. */
  function Bucket(hash: SipHash, name: string): (b: nat)
    ensures b < TableSize
  {
    hash(Fold(name)) % TableSize
  }

  function Chain(idx: Index, b: nat): seq<Object>
  {
    if b in idx.buckets then idx.buckets[b] else []
  }

  function SetChain(idx: Index, b: nat, chain: seq<Object>): Index
  {
    Index(idx.buckets[b := chain])
  }

  /** Setting one chain changes that chain only. */
  lemma SetChainFrame(idx: Index, b: nat, chain: seq<Object>)
    ensures Chain(SetChain(idx, b, chain), b) == chain
    ensures forall b' :: b' != b ==> Chain(SetChain(idx, b, chain), b') == Chain(idx, b')
  {
  }

  /** The linear walk of a chain comparing names with strcasecmp: the position of
      the first object whose name matches. */
  function Scan(chain: seq<Object>, name: string): (r: Option<nat>)
    ensures r.Some? ==> r.value < |chain| && SameName(chain[r.value].name, name)
    ensures r.Some? ==> forall j :: 0 <= j < r.value ==> !SameName(chain[j].name, name)
    ensures r.None? ==> forall j :: 0 <= j < |chain| ==> !SameName(chain[j].name, name)
  {
    if chain == [] then None
    else if SameName(chain[0].name, name) then Some(0)
    else match Scan(chain[1..], name)
      case None => None
      case Some(j) => Some(j + 1)
  }

  /** The position of `name` in its own bucket, if it is there. */
  function Locate(hash: SipHash, idx: Index, name: string): Option<nat>
  {
    Scan(Chain(idx, Bucket(hash, name)), name)
  }

  /** hbm_find_object */
  function FindObject(hash: SipHash, idx: Index, name: string): (r: Option<Object>)
    ensures r.Some? ==> r.value in Chain(idx, Bucket(hash, name)) && SameName(r.value.name, name)
    ensures r.None? ==> forall o :: o in Chain(idx, Bucket(hash, name)) ==> !SameName(o.name, name)
  {
    match Locate(hash, idx, name)
    case None => None
    case Some(pos) => Some(Chain(idx, Bucket(hash, name))[pos])
  }

  /** hbm_find_or_add_object: return the existing object, or link a new empty one
      (its name truncated by strlcpy) at the head of the bucket. */
  function FindOrAdd(hash: SipHash, idx: Index, name: string): (r: Handle)
    ensures r.pos < |Chain(r.idx, Bucket(hash, name))|
    ensures FindObject(hash, idx, name).Some? ==>
              r.idx == idx && Chain(idx, Bucket(hash, name))[r.pos] == FindObject(hash, idx, name).value
    ensures FindObject(hash, idx, name).None? ==>
              r.pos == 0 &&
              Chain(r.idx, Bucket(hash, name)) == [Object(Truncate(name), [], 0, 0)] + Chain(idx, Bucket(hash, name))
    ensures forall b :: b != Bucket(hash, name) ==> Chain(r.idx, b) == Chain(idx, b)
  {
    var b := Bucket(hash, name);
    match Scan(Chain(idx, b), name)
    case Some(pos) => Handle(idx, pos)
    case None => Handle(SetChain(idx, b, [Object(Truncate(name), [], 0, 0)] + Chain(idx, b)), 0)
  }

  /** hbm_delete_object_hlo: unlink an object from the chain of its name's bucket.
      The caller passes an object that is linked at `pos` of that chain. */
  function DeleteObject(hash: SipHash, idx: Index, o: Object, pos: nat): (r: Index)
    requires pos < |Chain(idx, Bucket(hash, o.name))|
    requires Chain(idx, Bucket(hash, o.name))[pos] == o
    ensures |Chain(r, Bucket(hash, o.name))| == |Chain(idx, Bucket(hash, o.name))| - 1
    ensures forall k :: 0 <= k < pos ==>
              Chain(r, Bucket(hash, o.name))[k] == Chain(idx, Bucket(hash, o.name))[k]
    ensures forall k :: pos <= k < |Chain(r, Bucket(hash, o.name))| ==>
              Chain(r, Bucket(hash, o.name))[k] == Chain(idx, Bucket(hash, o.name))[k + 1]
    ensures forall b :: b != Bucket(hash, o.name) ==> Chain(r, b) == Chain(idx, b)
  {
    var b := Bucket(hash, o.name);
    var chain := Chain(idx, b);
    var chain' := chain[..pos] + chain[pos + 1..];
    assert forall k :: 0 <= k < pos ==> chain'[k] == chain[k];
    assert forall k :: pos <= k < |chain'| ==> chain'[k] == chain[k + 1];
    assert Chain(SetChain(idx, b, chain'), b) == chain';
    SetChain(idx, b, chain')
  }

  // ---------------------------------------------------------------------------
  // Message tags: the "ensure time tag" part of hbm_duplicate_mtags
  // ---------------------------------------------------------------------------

  /** find_mtag: the first tag with the given name. */
  function FindTag(tags: seq<Tag>, name: string): (r: Option<Tag>)
    ensures r.Some? ==> r.value in tags && r.value.name == name
    ensures r.Some? ==> forall i :: 0 <= i < |tags| && tags[i].name == name ==>
                          (forall j :: 0 <= j < i ==> tags[j].name != name) ==> tags[i] == r.value
    ensures r.None? ==> forall t :: t in tags ==> t.name != name
  {
    if tags == [] then None
    else if tags[0].name == name then Some(tags[0])
    else
      var r := FindTag(tags[1..], name);
      assert forall t :: t in tags ==> t == tags[0] || t in tags[1..];
      assert forall i :: 1 <= i < |tags| ==> tags[i] == tags[1..][i - 1];
      r
  }

  /** The tags of a new line and the timestamp derived from them. */
  datatype StampedTags = StampedTags(tags: seq<Tag>, t: int)

  /** hbm_duplicate_mtags: copy the caller's tags in order; if none is named
      "time", prepend one carrying the current clock; then parse the time tag. */
  function EnsureTimeTag(mtags: seq<Tag>, ts: TimeSource): (r: StampedTags)
    ensures FindTag(r.tags, "time").Some?
    ensures r.t == ts.parse(FindTag(r.tags, "time").value.value)
    ensures |r.tags| <= |mtags| + 1
    ensures |mtags| <= |r.tags| && r.tags[|r.tags| - |mtags|..] == mtags
    ensures FindTag(mtags, "time").Some? ==> r.tags == mtags
    ensures FindTag(mtags, "time").None? ==> r.tags[0] == Tag("time", ts.clockTag)
  {
    var copies := mtags;
    match FindTag(copies, "time")
    case Some(n) => StampedTags(copies, ts.parse(n.value))
    case None =>
      var tags := [Tag("time", ts.clockTag)] + copies;
      assert tags[0] == Tag("time", ts.clockTag);
      StampedTags(tags, ts.parse(ts.clockTag))
  }

  /** Stamping is idempotent: a tag set that went through it already has its time
      tag, so a second pass changes neither the tags nor the timestamp. */
  lemma {:induction false} EnsureTimeTagIdempotent(mtags: seq<Tag>, ts: TimeSource)
    ensures EnsureTimeTag(EnsureTimeTag(mtags, ts).tags, ts) == EnsureTimeTag(mtags, ts)
  {
  }

  /** The line hbm_history_add_line builds before linking it. */
  function NewLine(mtags: seq<Tag>, text: string, ts: TimeSource): (r: Line)
    ensures r.text == text
    ensures |mtags| <= |r.tags| <= |mtags| + 1 && r.tags[|r.tags| - |mtags|..] == mtags
    ensures FindTag(mtags, "time").Some? ==> r.tags == mtags
    ensures FindTag(mtags, "time").None? ==> r.tags == [Tag("time", ts.clockTag)] + mtags
    ensures FindTag(r.tags, "time").Some?
    ensures r.t == ts.parse(FindTag(r.tags, "time").value.value)
  {
    var s := EnsureTimeTag(mtags, ts);
    Line(s.t, s.tags, text)
  }


  // ---------------------------------------------------------------------------
  // The cached fields
  // ---------------------------------------------------------------------------

  /** The true oldest timestamp of a log, 0 when it is empty. */
  function Oldest(lines: seq<Line>): int
  {
    if |lines| == 0 then 0
    else if |lines| == 1 then lines[0].t
    else Min(Oldest(lines[..|lines| - 1]), lines[|lines| - 1].t)
  }

  /** Oldest is the minimum: it is the time of some line and no line is older. */
  lemma {:induction false} OldestIsMinimum(lines: seq<Line>)
    ensures lines != [] ==> exists i :: 0 <= i < |lines| && lines[i].t == Oldest(lines)
    ensures forall i :: 0 <= i < |lines| ==> Oldest(lines) <= lines[i].t
  {
    if |lines| > 1 {
      var init := lines[..|lines| - 1];
      OldestIsMinimum(init);
      assert forall i :: 0 <= i < |init| ==> init[i] == lines[i];
      var j :| 0 <= j < |init| && init[j].t == Oldest(init);
      if Oldest(lines) != lines[|lines| - 1].t {
        assert lines[j].t == Oldest(lines);
      } else {
        assert lines[|lines| - 1].t == Oldest(lines);
      }
    } else if |lines| == 1 {
      assert lines[0].t == Oldest(lines);
    }
  }

  /** The update rule the source applies to `oldest_t` for each line it keeps:
      0 means "nothing yet". */
  function Track(oldest: int, t: int): (r: int)
    ensures oldest == 0 ==> r == t
    ensures oldest != 0 ==> r == Min(oldest, t)
  {
    if oldest == 0 || t < oldest then t else oldest
  }

  /** No line carries the sentinel timestamp 0. */
  predicate NonZero(lines: seq<Line>)
  {
    forall l :: l in lines ==> l.t != 0
  }

  /** The cached fields agree with the lines. */
  predicate Consistent(o: Object)
  {
    o.numLines == |o.lines| && o.oldestT == Oldest(o.lines)
  }

  /** Folding Track over a log stamped without 0 computes its oldest timestamp. */
  lemma {:induction false} TrackExtends(s: seq<Line>, l: Line)
    ensures NonZero(s) ==> Track(Oldest(s), l.t) == Oldest(s + [l])
  {
    var s' := s + [l];
    assert s'[..|s'| - 1] == s;
    if s != [] && NonZero(s) {
      OldestIsMinimum(s);
      var i :| 0 <= i < |s| && s[i].t == Oldest(s);
      assert s[i] in s;
    }
  }

  // ---------------------------------------------------------------------------
  // Lines: hbm_history_add_line and hbm_history_del_line
  // ---------------------------------------------------------------------------

  /** hbm_history_add_line: append at the tail and update both cached fields. */
  function AddLine(o: Object, mtags: seq<Tag>, text: string, ts: TimeSource): (r: Object)
    ensures r.name == o.name
    ensures |r.lines| == |o.lines| + 1 && r.lines[..|o.lines|] == o.lines
    ensures r.lines[|o.lines|] == NewLine(mtags, text, ts)
    ensures r.numLines == o.numLines + 1
    ensures o.oldestT == 0 ==> r.oldestT == r.lines[|o.lines|].t
    ensures o.oldestT != 0 ==> r.oldestT == Min(o.oldestT, r.lines[|o.lines|].t)
  {
    var l := NewLine(mtags, text, ts);
    var lines := o.lines + [l];
    assert lines[..|o.lines|] == o.lines && lines[|o.lines|] == l;
    assert FindTag(l.tags, "time").Some?;
    Object(o.name, lines, o.numLines + 1, Track(o.oldestT, l.t))
  }

  /** Adding a line keeps the cache consistent, provided no line is stamped 0. */
  lemma {:induction false} AddLineConsistent(o: Object, mtags: seq<Tag>, text: string, ts: TimeSource)
    requires Consistent(o) && NonZero(o.lines)
    ensures Consistent(AddLine(o, mtags, text, ts))
    ensures NewLine(mtags, text, ts).t != 0 ==> NonZero(AddLine(o, mtags, text, ts).lines)
  {
    TrackExtends(o.lines, NewLine(mtags, text, ts));
  }

  /** Why the stamps must be nonzero: a line stamped 0 looks like "no oldest
      line yet", and the next add overwrites the cached minimum. */
  lemma {:induction false} ZeroStampBreaksCache()
    ensures var o := Object("#c", [Line(0, [], "a")], 1, 0);
            Consistent(o) && !Consistent(AddLine(o, [], "b", TimeSource("t", s => 5)))
  {
    var o := Object("#c", [Line(0, [], "a")], 1, 0);
    var r := AddLine(o, [], "b", TimeSource("t", s => 5));
    assert r.lines[..1] == [Line(0, [], "a")];
  }

  /** hbm_history_del_line: unlink line `i` and decrement the count; `oldestT`
      is deliberately left for the caller to recompute. */
  function DelLine(o: Object, i: nat): (r: Object)
    requires i < |o.lines|
    ensures r.name == o.name
    ensures |r.lines| == |o.lines| - 1
    ensures r.lines[..i] == o.lines[..i] && r.lines[i..] == o.lines[i + 1..]
    ensures r.numLines == o.numLines - 1
    ensures r.oldestT == o.oldestT
  {
    Object(o.name, o.lines[..i] + o.lines[i + 1..], o.numLines - 1, o.oldestT)
  }

  /** Deleting one line keeps the count right but can leave `oldestT` stale:
      here the oldest line goes and the cache still names its time. */
  lemma {:induction false} DelLineLeavesOldestStale()
    ensures var o := Object("#c", [Line(1, [], "a"), Line(2, [], "b")], 2, 1);
            Consistent(o) && !Consistent(DelLine(o, 0)) && DelLine(o, 0).numLines == |DelLine(o, 0).lines|
  {
    var o := Object("#c", [Line(1, [], "a"), Line(2, [], "b")], 2, 1);
    assert o.lines[..1] == [Line(1, [], "a")];
    var r := DelLine(o, 0);
    assert r.lines == [Line(2, [], "b")];
  }

  // ---------------------------------------------------------------------------
  // Retention: hbm_history_del
  // ---------------------------------------------------------------------------

  /** The lines not older than `redline`, in their original order. */
  function Newer(lines: seq<Line>, redline: int): (r: seq<Line>)
    ensures |r| <= |lines|
  {
    if lines == [] then []
    else (if lines[0].t >= redline then [lines[0]] else []) + Newer(lines[1..], redline)
  }

  /** A line survives the filter exactly when it is in the log and not older
      than the redline. */
  lemma {:induction false} NewerMembers(lines: seq<Line>, redline: int)
    ensures forall l :: l in Newer(lines, redline) <==> l in lines && l.t >= redline
  {
    if lines != [] {
      NewerMembers(lines[1..], redline);
      assert forall l :: l in lines <==> l == lines[0] || l in lines[1..];
    }
  }

  /** When nothing is older than the redline, filtering keeps everything. */
  lemma {:induction false} NewerKeepsAll(lines: seq<Line>, redline: int)
    requires forall i :: 0 <= i < |lines| ==> lines[i].t >= redline
    ensures Newer(lines, redline) == lines
  {
    if lines != [] {
      NewerKeepsAll(lines[1..], redline);
    }
  }

  /** The first loop of hbm_history_del, from line `i` on: each line older than
      the redline is deleted, every other one is folded into `oldestT`. */
  function AgeSweep(o: Object, i: nat, redline: int): (r: Object)
    requires i <= |o.lines|
    decreases |o.lines| - i
    ensures r.name == o.name
    ensures r.lines == o.lines[..i] + Newer(o.lines[i..], redline)
    ensures r.numLines == o.numLines - (|o.lines| - i) + |Newer(o.lines[i..], redline)|
  {
    if i == |o.lines| then
      assert o.lines[..i] == o.lines;
      o
    else
      var l := o.lines[i];
      if l.t < redline then
        AgeDelStep(o, i, redline);
        AgeSweep(DelLine(o, i), i, redline)
      else
        AgeKeepStep(o, i, redline);
        AgeSweep(o.(oldestT := Track(o.oldestT, l.t)), i + 1, redline)
  }

  /** Deleting a line older than the redline does not change what the filter keeps. */
  lemma {:induction false} AgeDelStep(o: Object, i: nat, redline: int)
    requires i < |o.lines| && o.lines[i].t < redline
    ensures var o' := DelLine(o, i);
            && o'.lines[..i] == o.lines[..i]
            && Newer(o'.lines[i..], redline) == Newer(o.lines[i..], redline)
  {
    var o' := DelLine(o, i);
    assert o.lines[i..] == [o.lines[i]] + o'.lines[i..];
    assert o.lines[i..][1..] == o'.lines[i..];
  }

  /** Passing a line not older than the redline moves it from the filtered part
      to the kept prefix. */
  lemma {:induction false} AgeKeepStep(o: Object, i: nat, redline: int)
    requires i < |o.lines| && o.lines[i].t >= redline
    ensures o.lines[..i + 1] + Newer(o.lines[i + 1..], redline) == o.lines[..i] + Newer(o.lines[i..], redline)
    ensures |Newer(o.lines[i..], redline)| == 1 + |Newer(o.lines[i + 1..], redline)|
  {
    var l := o.lines[i];
    assert o.lines[i..][0] == l && o.lines[i..][1..] == o.lines[i + 1..];
    assert Newer(o.lines[i..], redline) == [l] + Newer(o.lines[i + 1..], redline);
    assert o.lines[..i + 1] == o.lines[..i] + [l];
  }

  /** The sweep's running `oldestT` ends as the oldest time of the survivors,
      provided it starts as the oldest time of the lines already passed. */
  lemma {:induction false} AgeSweepOldest(o: Object, i: nat, redline: int)
    requires i <= |o.lines|
    requires NonZero(o.lines) && o.oldestT == Oldest(o.lines[..i])
    decreases |o.lines| - i
    ensures AgeSweep(o, i, redline).oldestT == Oldest(AgeSweep(o, i, redline).lines)
  {
    if i < |o.lines| {
      var l := o.lines[i];
      if l.t < redline {
        var o' := DelLine(o, i);
        assert o.lines[..i] + o.lines[i + 1..] == o'.lines;
        AgeSweepOldest(o', i, redline);
      } else {
        assert o.lines[..i + 1] == o.lines[..i] + [l];
        TrackExtends(o.lines[..i], l);
        AgeSweepOldest(o.(oldestT := Track(o.oldestT, l.t)), i + 1, redline);
      }
    } else {
      assert o.lines[..i] == o.lines;
    }
  }

  /** How many lines the count loop deletes: the excess over `maxLines`, bounded
      by the lines that are left. */
  function Excess(numLines: int, maxLines: int, avail: nat): nat
  {
    if numLines <= maxLines then 0 else Min(avail, numLines - maxLines)
  }

  /** The second loop of hbm_history_del, from line `i` on: delete from the head
      while the cached count exceeds `maxLines`, fold the rest into `oldestT`. */
  function CountSweep(o: Object, i: nat, maxLines: int): (r: Object)
    requires i <= |o.lines|
    decreases |o.lines| - i
    ensures r.name == o.name
    ensures r.lines == o.lines[..i] + o.lines[i + Excess(o.numLines, maxLines, |o.lines| - i)..]
    ensures r.numLines == o.numLines - Excess(o.numLines, maxLines, |o.lines| - i)
  {
    if i == |o.lines| then
      assert o.lines[..i] == o.lines;
      o
    else
      var l := o.lines[i];
      if o.numLines > maxLines then
        CountDelStep(o, i, maxLines);
        CountSweep(DelLine(o, i), i, maxLines)
      else
        CountKeepStep(o, i, maxLines);
        CountSweep(o.(oldestT := Track(o.oldestT, l.t)), i + 1, maxLines)
  }

  /** Keeping line `i` when nothing is in excess moves it into the kept prefix. */
  lemma CountKeepStep(o: Object, i: nat, maxLines: int)
    requires i < |o.lines| && o.numLines <= maxLines
    ensures Excess(o.numLines, maxLines, |o.lines| - i) == 0
    ensures Excess(o.numLines, maxLines, |o.lines| - (i + 1)) == 0
    ensures o.lines[..i + 1] + o.lines[i + 1..] == o.lines[..i] + o.lines[i..]
  {
    assert o.lines[..i + 1] + o.lines[i + 1..] == o.lines == o.lines[..i] + o.lines[i..];
  }

  /** Deleting line `i` leaves one line fewer of excess to delete behind it. */
  lemma {:induction false} CountDelStep(o: Object, i: nat, maxLines: int)
    requires i < |o.lines| && o.numLines > maxLines
    ensures var o' := DelLine(o, i);
            var d' := Excess(o'.numLines, maxLines, |o'.lines| - i);
            && Excess(o.numLines, maxLines, |o.lines| - i) == d' + 1
            && o'.lines[..i] + o'.lines[i + d'..] == o.lines[..i] + o.lines[i + 1 + d'..]
  {
    var o' := DelLine(o, i);
    var d' := Excess(o'.numLines, maxLines, |o'.lines| - i);
    assert o'.lines[i + d'..] == o'.lines[i..][d'..];
    assert o.lines[i + 1..][d'..] == o.lines[i + 1 + d'..];
  }

  /** The count sweep's running `oldestT` ends as the oldest time of the survivors. */
  lemma {:induction false} CountSweepOldest(o: Object, i: nat, maxLines: int)
    requires i <= |o.lines|
    requires NonZero(o.lines) && o.oldestT == Oldest(o.lines[..i])
    decreases |o.lines| - i
    ensures CountSweep(o, i, maxLines).oldestT == Oldest(CountSweep(o, i, maxLines).lines)
  {
    if i < |o.lines| {
      var l := o.lines[i];
      if o.numLines > maxLines {
        var o' := DelLine(o, i);
        assert o.lines[..i] + o.lines[i + 1..] == o'.lines;
        CountSweepOldest(o', i, maxLines);
      } else {
        assert o.lines[..i + 1] == o.lines[..i] + [l];
        TrackExtends(o.lines[..i], l);
        CountSweepOldest(o.(oldestT := Track(o.oldestT, l.t)), i + 1, maxLines);
      }
    } else {
      assert o.lines[..i] == o.lines;
    }
  }

  /** A consistent cache whose oldest time is not before the redline means no
      line is older than the redline. */
  lemma {:induction false} NothingStale(o: Object, redline: int)
    ensures Consistent(o) && o.oldestT >= redline ==> Newer(o.lines, redline) == o.lines
  {
    if Consistent(o) && o.oldestT >= redline {
      OldestIsMinimum(o.lines);
      NewerKeepsAll(o.lines, redline);
    }
  }

  /** The age pass: runs only when the cached oldest time is before the redline;
      afterwards no line is older than the redline, every newer line survives in
      order, and the cache is recomputed from the survivors. */
  function AgePass(o: Object, redline: int): (r: Object)
    ensures r.name == o.name
    ensures Consistent(o) && NonZero(o.lines) ==> r.lines == Newer(o.lines, redline)
    ensures Consistent(o) && NonZero(o.lines) ==> Consistent(r)
    ensures Consistent(o) && NonZero(o.lines) ==> NonZero(r.lines)
  {
    if o.oldestT < redline then
      var o0 := o.(oldestT := 0);
      assert o.lines[..0] == [] && o.lines[0..] == o.lines;
      AgePassSweep(o0, redline);
      AgeSweep(o0, 0, redline)
    else
      NothingStale(o, redline);
      o
  }

  lemma {:induction false} AgePassSweep(o: Object, redline: int)
    requires o.oldestT == 0
    ensures Consistent(o.(oldestT := Oldest(o.lines))) && NonZero(o.lines) ==>
              Consistent(AgeSweep(o, 0, redline)) && NonZero(AgeSweep(o, 0, redline).lines)
  {
    if o.numLines == |o.lines| && NonZero(o.lines) {
      assert o.lines[..0] == [] && o.lines[0..] == o.lines;
      AgeSweepOldest(o, 0, redline);
      NewerMembers(o.lines, redline);
    }
  }

  /** The count pass: runs only when the cached count exceeds `maxLines`;
      afterwards exactly the most recent min(count, maxLines) lines are left. */
  function CountPass(o: Object, maxLines: int): (r: Object)
    ensures r.name == o.name
    ensures Consistent(o) && NonZero(o.lines) ==>
              r.lines == o.lines[|o.lines| - Min(|o.lines|, Max(0, maxLines))..]
    ensures Consistent(o) && NonZero(o.lines) ==> Consistent(r)
    ensures Consistent(o) && NonZero(o.lines) ==> NonZero(r.lines)
  {
    if o.numLines > maxLines then
      var o0 := o.(oldestT := 0);
      CountPassSweep(o0, maxLines);
      CountSweep(o0, 0, maxLines)
    else
      assert o.lines[0..] == o.lines;
      o
  }

  lemma {:induction false} CountPassSweep(o: Object, maxLines: int)
    requires o.oldestT == 0 && o.numLines > maxLines
    ensures Consistent(o.(oldestT := Oldest(o.lines))) && NonZero(o.lines) ==>
              var r := CountSweep(o, 0, maxLines);
              r.lines == o.lines[|o.lines| - Min(|o.lines|, Max(0, maxLines))..] &&
              Consistent(r) && NonZero(r.lines)
  {
    if o.numLines == |o.lines| && NonZero(o.lines) {
      var n := |o.lines|;
      var d := Excess(o.numLines, maxLines, n);
      assert d == n - Min(n, Max(0, maxLines));
      assert o.lines[..0] + o.lines[d..] == o.lines[d..];
      CountSweepOldest(o, 0, maxLines);
      var r := CountSweep(o, 0, maxLines);
      assert forall l :: l in r.lines ==> l in o.lines;
    }
  }

  /** Both passes of hbm_history_del on one object, age first. */
  function Retain(o: Object, maxLines: int, redline: int): (r: Object)
    ensures r.name == o.name
  {
    CountPass(AgePass(o, redline), maxLines)
  }

  /** On a consistent object the two passes leave the most recent
      min(survivors, maxLines) of the lines not older than the redline, in
      order. */
  lemma {:induction false} RetainKeeps(o: Object, maxLines: int, redline: int)
    requires Consistent(o) && NonZero(o.lines)
    ensures var r, kept := Retain(o, maxLines, redline), Newer(o.lines, redline);
            var keep := Min(|kept|, Max(0, maxLines));
            r.lines == kept[|kept| - keep..]
  {
    var a := AgePass(o, redline);
    assert Retain(o, maxLines, redline) == CountPass(a, maxLines);
    assert a.lines == Newer(o.lines, redline);
  }

  /** ... and recompute both caches from what they leave. */
  lemma {:induction false} RetainConsistent(o: Object, maxLines: int, redline: int)
    requires Consistent(o) && NonZero(o.lines)
    ensures Consistent(Retain(o, maxLines, redline))
    ensures NonZero(Retain(o, maxLines, redline).lines)
  {
    var a := AgePass(o, redline);
    assert Retain(o, maxLines, redline) == CountPass(a, maxLines);
    assert Consistent(a) && NonZero(a.lines);
  }

  /** Every line left by the two passes was in the log and is not older than
      the redline. */
  lemma {:induction false} RetainOnlyNewer(o: Object, maxLines: int, redline: int)
    requires Consistent(o) && NonZero(o.lines)
    ensures forall l :: l in Retain(o, maxLines, redline).lines ==> l in o.lines && l.t >= redline
  {
    var kept := Newer(o.lines, redline);
    RetainKeeps(o, maxLines, redline);
    NewerMembers(o.lines, redline);
    SuffixMembers(kept, |kept| - Min(|kept|, Max(0, maxLines)));
  }

  /** Replacing objects by ones with the same names does not move any name. */
  lemma {:induction false} ScanSameNames(c1: seq<Object>, c2: seq<Object>, name: string)
    requires |c1| == |c2|
    requires forall k :: 0 <= k < |c1| ==> c1[k].name == c2[k].name
    ensures Scan(c1, name) == Scan(c2, name)
  {
    if c1 != [] {
      ScanSameNames(c1[1..], c2[1..], name);
    }
  }

  /** hbm_history_del: 0 and no change for an unknown target; otherwise the
      target's object is replaced by its retained version and 1 is returned. */
  function HistoryDel(hash: SipHash, idx: Index, name: string, maxLines: int, maxTime: int, now: int): (r: Outcome)
    ensures r.rc == 0 || r.rc == 1
    ensures r.rc == 0 <==> FindObject(hash, idx, name).None?
    ensures r.rc == 0 ==> r.idx == idx
    ensures r.rc == 1 ==>
              FindObject(hash, r.idx, name) == Some(Retain(FindObject(hash, idx, name).value, maxLines, now - maxTime))
    ensures |Chain(r.idx, Bucket(hash, name))| == |Chain(idx, Bucket(hash, name))|
    ensures forall k :: 0 <= k < |Chain(idx, Bucket(hash, name))| && Locate(hash, idx, name) != Some(k) ==>
              Chain(r.idx, Bucket(hash, name))[k] == Chain(idx, Bucket(hash, name))[k]
    ensures forall b :: b != Bucket(hash, name) ==> Chain(r.idx, b) == Chain(idx, b)
  {
    var b := Bucket(hash, name);
    var chain := Chain(idx, b);
    match Scan(chain, name)
    case None => Outcome(idx, 0)
    case Some(pos) =>
      var chain' := chain[pos := Retain(chain[pos], maxLines, now - maxTime)];
      ScanSameNames(chain, chain', name);
      Outcome(SetChain(idx, b, chain'), 1)
  }

  // ---------------------------------------------------------------------------
  // hbm_history_add and hbm_history_destroy
  // ---------------------------------------------------------------------------

  /** The object a new line for `name` lands in: the existing one, or a fresh
      empty one under the truncated name. */
  function Prior(hash: SipHash, idx: Index, name: string): Object
  {
    match FindObject(hash, idx, name)
    case Some(o) => o
    case None => Object(Truncate(name), [], 0, 0)
  }

  /** hbm_history_add: find or create the target's object and append a line. */
  function HistoryAdd(hash: SipHash, idx: Index, name: string, mtags: seq<Tag>, text: string, ts: TimeSource): (r: Outcome)
    ensures r.rc == 0
    ensures FindObject(hash, idx, name).Some? ==>
              |Chain(r.idx, Bucket(hash, name))| == |Chain(idx, Bucket(hash, name))|
    ensures FindObject(hash, idx, name).None? ==>
              |Chain(r.idx, Bucket(hash, name))| == |Chain(idx, Bucket(hash, name))| + 1
    ensures forall b :: b != Bucket(hash, name) ==> Chain(r.idx, b) == Chain(idx, b)
  {
    var b := Bucket(hash, name);
    var h := FindOrAdd(hash, idx, name);
    var chain := Chain(h.idx, b);
    var chain' := chain[h.pos := AddLine(chain[h.pos], mtags, text, ts)];
    assert |chain'| == |chain|;
    SetChainFrame(h.idx, b, chain');
    Outcome(SetChain(h.idx, b, chain'), 0)
  }

  /** After hbm_history_add the name finds its object with the new line
      appended, when the name fits the buffer. */
  lemma {:induction false} HistoryAddFinds(hash: SipHash, idx: Index, name: string, mtags: seq<Tag>,
                                           text: string, ts: TimeSource)
    requires |name| <= ObjectLen
    ensures FindObject(hash, HistoryAdd(hash, idx, name, mtags, text, ts).idx, name) ==
              Some(AddLine(Prior(hash, idx, name), mtags, text, ts))
  {
    var b := Bucket(hash, name);
    var h := FindOrAdd(hash, idx, name);
    var chain := Chain(h.idx, b);
    FindOrAddLocates(hash, idx, name);
    ReplaceFinds(hash, h.idx, name, h.pos, AddLine(chain[h.pos], mtags, text, ts));
  }

  /** Replacing the object a name finds by one with the same name makes the name
      find the replacement. */
  lemma {:induction false} ReplaceFinds(hash: SipHash, idx: Index, name: string, pos: nat, o: Object)
    requires Scan(Chain(idx, Bucket(hash, name)), name) == Some(pos)
    requires o.name == Chain(idx, Bucket(hash, name))[pos].name
    ensures FindObject(hash, SetChain(idx, Bucket(hash, name), Chain(idx, Bucket(hash, name))[pos := o]), name) == Some(o)
  {
    var b := Bucket(hash, name);
    var chain := Chain(idx, b);
    var chain' := chain[pos := o];
    forall k | 0 <= k < |chain|
      ensures chain'[k].name == chain[k].name
    {
    }
    ScanSameNames(chain, chain', name);
    assert Chain(SetChain(idx, b, chain'), b) == chain';
  }

  /** The handle find-or-create returns is where a lookup of the name lands,
      and it holds the object a new line for the name goes to. */
  lemma {:induction false} FindOrAddLocates(hash: SipHash, idx: Index, name: string)
    requires |name| <= ObjectLen
    ensures var h := FindOrAdd(hash, idx, name);
            Scan(Chain(h.idx, Bucket(hash, name)), name) == Some(h.pos)
    ensures var h := FindOrAdd(hash, idx, name);
            Chain(h.idx, Bucket(hash, name))[h.pos] == Prior(hash, idx, name)
  {
    var b := Bucket(hash, name);
    var h := FindOrAdd(hash, idx, name);
    if Scan(Chain(idx, b), name).None? {
      assert Chain(h.idx, b)[0] == Object(name, [], 0, 0);
    }
  }

  /** hbm_history_destroy: 0 for an unknown target; otherwise the object and
      all its lines are released, the object is unlinked, and 1 is returned. */
  function HistoryDestroy(hash: SipHash, idx: Index, name: string): (r: Outcome)
    ensures r.rc == 0 || r.rc == 1
    ensures r.rc == 0 <==> FindObject(hash, idx, name).None?
    ensures r.rc == 0 ==> r.idx == idx
    ensures r.rc == 1 ==> |Chain(r.idx, Bucket(hash, name))| == |Chain(idx, Bucket(hash, name))| - 1
    ensures r.rc == 1 ==> forall k :: 0 <= k < Locate(hash, idx, name).value ==>
              Chain(r.idx, Bucket(hash, name))[k] == Chain(idx, Bucket(hash, name))[k]
    ensures r.rc == 1 ==> forall k :: Locate(hash, idx, name).value <= k < |Chain(r.idx, Bucket(hash, name))| ==>
              Chain(r.idx, Bucket(hash, name))[k] == Chain(idx, Bucket(hash, name))[k + 1]
    ensures forall b :: b != Bucket(hash, name) ==> Chain(r.idx, b) == Chain(idx, b)
  {
    var b := Bucket(hash, name);
    var chain := Chain(idx, b);
    match Scan(chain, name)
    case None => Outcome(idx, 0)
    case Some(pos) => Outcome(DeleteObject(hash, idx, chain[pos], pos), 1)
  }

  // ---------------------------------------------------------------------------
  // The index invariant
  // ---------------------------------------------------------------------------

  predicate UniqueNames(chain: seq<Object>)
  {
    forall i, j :: 0 <= i < j < |chain| ==> !SameName(chain[i].name, chain[j].name)
  }

  /** A well-formed chain of bucket `b`: every object hashes to `b`, has a
      consistent cache and no line stamped 0, and no two names match. */
  ghost predicate ValidChain(hash: SipHash, b: nat, chain: seq<Object>)
  {
    && (forall o :: o in chain ==> Bucket(hash, o.name) == b && Consistent(o) && NonZero(o.lines))
    && UniqueNames(chain)
  }

  ghost predicate Valid(hash: SipHash, idx: Index)
  {
    forall b :: b in idx.buckets ==> ValidChain(hash, b, idx.buckets[b])
  }

  /** The empty table the module starts with. */
  lemma EmptyValid(hash: SipHash)
    ensures Valid(hash, Index(map[]))
  {
  }

  lemma ChainValid(hash: SipHash, idx: Index, b: nat)
    requires Valid(hash, idx)
    ensures ValidChain(hash, b, Chain(idx, b))
  {
  }

  lemma SetChainValid(hash: SipHash, idx: Index, b: nat, chain: seq<Object>)
    requires Valid(hash, idx) && ValidChain(hash, b, chain)
    ensures Valid(hash, SetChain(idx, b, chain))
  {
  }

  /** In a valid index each case-insensitive name occurs at most once. */
  lemma {:induction false} AtMostOnce(hash: SipHash, idx: Index, b1: nat, i1: nat, b2: nat, i2: nat)
    requires Valid(hash, idx)
    requires i1 < |Chain(idx, b1)| && i2 < |Chain(idx, b2)|
    requires SameName(Chain(idx, b1)[i1].name, Chain(idx, b2)[i2].name)
    ensures b1 == b2 && i1 == i2
  {
    ChainValid(hash, idx, b1);
    ChainValid(hash, idx, b2);
    var o1, o2 := Chain(idx, b1)[i1], Chain(idx, b2)[i2];
    assert o1 in Chain(idx, b1) && o2 in Chain(idx, b2);
    assert Fold(o1.name) == Fold(o2.name);
  }

  /** In a valid index a lookup that finds nothing in the name's bucket means
      the name is nowhere in the index. */
  lemma {:induction false} FindObjectIsGlobal(hash: SipHash, idx: Index, name: string)
    requires Valid(hash, idx)
    ensures FindObject(hash, idx, name).None? <==>
              forall b, o :: b in idx.buckets && o in idx.buckets[b] ==> !SameName(o.name, name)
  {
    if FindObject(hash, idx, name).None? {
      forall b, o | b in idx.buckets && o in idx.buckets[b]
        ensures !SameName(o.name, name)
      {
        assert Bucket(hash, o.name) == b;
        assert b == Bucket(hash, name) ==> o in Chain(idx, Bucket(hash, name));
      }
    } else {
      var o := FindObject(hash, idx, name).value;
      assert Bucket(hash, name) in idx.buckets && o in idx.buckets[Bucket(hash, name)];
    }
  }

  /** Lookups ignore case: two names that match find the same object. */
  lemma {:induction false} FindIgnoresCase(hash: SipHash, idx: Index, a: string, b: string)
    requires SameName(a, b)
    ensures FindObject(hash, idx, a) == FindObject(hash, idx, b)
  {
    ScanIgnoresCase(Chain(idx, Bucket(hash, a)), a, b);
  }

  lemma {:induction false} ScanIgnoresCase(chain: seq<Object>, a: string, b: string)
    requires SameName(a, b)
    ensures Scan(chain, a) == Scan(chain, b)
  {
    if chain != [] {
      ScanIgnoresCase(chain[1..], a, b);
    }
  }

  lemma {:induction false} ReplaceValid(hash: SipHash, b: nat, chain: seq<Object>, pos: nat, o: Object)
    requires ValidChain(hash, b, chain)
    requires pos < |chain| && o.name == chain[pos].name
    requires Consistent(o) && NonZero(o.lines)
    ensures ValidChain(hash, b, chain[pos := o])
  {
    var chain' := chain[pos := o];
    assert chain[pos] in chain;
    forall o' | o' in chain'
      ensures Bucket(hash, o'.name) == b && Consistent(o') && NonZero(o'.lines)
    {
      var k :| 0 <= k < |chain'| && chain'[k] == o';
      assert k != pos ==> chain[k] in chain;
    }
  }

  lemma {:induction false} PrependValid(hash: SipHash, b: nat, chain: seq<Object>, o: Object)
    requires ValidChain(hash, b, chain)
    requires Bucket(hash, o.name) == b && Consistent(o) && NonZero(o.lines)
    requires forall k :: 0 <= k < |chain| ==> !SameName(chain[k].name, o.name)
    ensures ValidChain(hash, b, [o] + chain)
  {
    var chain' := [o] + chain;
    forall i, j | 0 <= i < j < |chain'|
      ensures !SameName(chain'[i].name, chain'[j].name)
    {
      assert chain'[j] == chain[j - 1];
      if i > 0 {
        assert chain'[i] == chain[i - 1];
      }
    }
  }

  lemma {:induction false} RemoveValid(hash: SipHash, b: nat, chain: seq<Object>, pos: nat)
    requires ValidChain(hash, b, chain)
    requires pos < |chain|
    ensures ValidChain(hash, b, chain[..pos] + chain[pos + 1..])
  {
    var chain' := chain[..pos] + chain[pos + 1..];
    assert forall k :: 0 <= k < |chain'| ==> chain'[k] == chain[if k < pos then k else k + 1];
    assert forall o :: o in chain' ==> o in chain;
  }

  /** Find-or-create on a name that fits the buffer keeps the index valid and
      makes the name findable, as the handle's object. */
  lemma {:induction false} FindOrAddValid(hash: SipHash, idx: Index, name: string)
    requires Valid(hash, idx)
    requires |name| <= ObjectLen
    ensures var h := FindOrAdd(hash, idx, name);
            Valid(hash, h.idx) &&
            FindObject(hash, h.idx, name) == Some(Chain(h.idx, Bucket(hash, name))[h.pos])
  {
    var b := Bucket(hash, name);
    var h := FindOrAdd(hash, idx, name);
    ChainValid(hash, idx, b);
    if FindObject(hash, idx, name).None? {
      var chain := Chain(idx, b);
      PrependValid(hash, b, chain, Object(name, [], 0, 0));
      SetChainValid(hash, idx, b, [Object(name, [], 0, 0)] + chain);
    } else {
      var pos := Locate(hash, idx, name).value;
      if pos != h.pos {
        AtMostOnce(hash, idx, b, pos, b, h.pos);
      }
    }
  }

  /** hbm_history_add keeps the index valid when the name fits the buffer and
      the new line is not stamped 0. */
  lemma {:induction false} HistoryAddValid(hash: SipHash, idx: Index, name: string, mtags: seq<Tag>, text: string, ts: TimeSource)
    requires Valid(hash, idx)
    requires |name| <= ObjectLen
    requires NewLine(mtags, text, ts).t != 0
    ensures Valid(hash, HistoryAdd(hash, idx, name, mtags, text, ts).idx)
  {
    var b := Bucket(hash, name);
    var h := FindOrAdd(hash, idx, name);
    FindOrAddValid(hash, idx, name);
    ChainValid(hash, h.idx, b);
    var chain := Chain(h.idx, b);
    var o := chain[h.pos];
    assert o in chain;
    AddLineConsistent(o, mtags, text, ts);
    ReplaceValid(hash, b, chain, h.pos, AddLine(o, mtags, text, ts));
    SetChainValid(hash, h.idx, b, chain[h.pos := AddLine(o, mtags, text, ts)]);
  }

  /** hbm_history_del keeps the index valid. */
  lemma {:induction false} HistoryDelValid(hash: SipHash, idx: Index, name: string, maxLines: int, maxTime: int, now: int)
    requires Valid(hash, idx)
    ensures Valid(hash, HistoryDel(hash, idx, name, maxLines, maxTime, now).idx)
  {
    var b := Bucket(hash, name);
    var chain := Chain(idx, b);
    ChainValid(hash, idx, b);
    match Scan(chain, name)
    case None =>
    case Some(pos) =>
      assert chain[pos] in chain;
      RetainConsistent(chain[pos], maxLines, now - maxTime);
      var o := Retain(chain[pos], maxLines, now - maxTime);
      ReplaceValid(hash, b, chain, pos, o);
      SetChainValid(hash, idx, b, chain[pos := o]);
  }

  /** After hbm_history_destroy the name is gone, the index is still valid, and
      every object with another name is still where it was. */
  lemma {:induction false} HistoryDestroyRemoves(hash: SipHash, idx: Index, name: string)
    requires Valid(hash, idx)
    ensures var r := HistoryDestroy(hash, idx, name);
            Valid(hash, r.idx) && FindObject(hash, r.idx, name).None?
    ensures var r := HistoryDestroy(hash, idx, name);
            forall b, o :: o in Chain(idx, b) && !SameName(o.name, name) ==> o in Chain(r.idx, b)
  {
    var b := Bucket(hash, name);
    var chain := Chain(idx, b);
    ChainValid(hash, idx, b);
    match Scan(chain, name)
    case None =>
    case Some(pos) =>
      var chain' := chain[..pos] + chain[pos + 1..];
      assert HistoryDestroy(hash, idx, name).idx == SetChain(idx, b, chain');
      RemoveValid(hash, b, chain, pos);
      SetChainValid(hash, idx, b, chain');
      RemoveNamed(chain, pos, name);
  }

  /** Unlinking the one object with a given name from a chain of unique names
      leaves no object of that name and keeps every other object. */
  lemma {:induction false} RemoveNamed(chain: seq<Object>, pos: nat, name: string)
    requires UniqueNames(chain)
    requires pos < |chain| && SameName(chain[pos].name, name)
    ensures forall o :: o in chain[..pos] + chain[pos + 1..] ==> !SameName(o.name, name)
    ensures forall o :: o in chain && !SameName(o.name, name) ==> o in chain[..pos] + chain[pos + 1..]
  {
    var chain' := chain[..pos] + chain[pos + 1..];
    forall o | o in chain'
      ensures !SameName(o.name, name)
    {
      var k :| 0 <= k < |chain'| && chain'[k] == o;
      CutIndex(chain, pos, k);
    }
    forall o | o in chain && !SameName(o.name, name)
      ensures o in chain'
    {
      var k :| 0 <= k < |chain| && chain[k] == o;
      if k < pos {
        CutIndex(chain, pos, k);
      } else {
        assert k != pos;
        CutIndex(chain, pos, k - 1);
      }
    }
  }

  /** A destroyed target comes back as a never-seen one: after destroy and add,
      the object holds exactly the new line, with the caches of a fresh object. */
  lemma {:induction false} DestroyThenAddIsFresh(hash: SipHash, idx: Index, name: string, mtags: seq<Tag>, text: string, ts: TimeSource)
    requires Valid(hash, idx)
    requires |name| <= ObjectLen
    ensures var d := HistoryDestroy(hash, idx, name).idx;
            FindObject(hash, HistoryAdd(hash, d, name, mtags, text, ts).idx, name) ==
              Some(Object(name, [NewLine(mtags, text, ts)], 1, NewLine(mtags, text, ts).t))
  {
    HistoryDestroyRemoves(hash, idx, name);
    HistoryAddFinds(hash, HistoryDestroy(hash, idx, name).idx, name, mtags, text, ts);
  }

  /** A target name longer than the buffer is stored truncated, so the object
      created for it is never found again by that name. */
  lemma {:induction false} LongNameNeverFound(hash: SipHash, idx: Index, name: string)
    requires |name| > ObjectLen
    requires FindObject(hash, idx, name).None?
    ensures FindObject(hash, FindOrAdd(hash, idx, name).idx, name).None?
  {
    var b := Bucket(hash, name);
    var chain := Chain(FindOrAdd(hash, idx, name).idx, b);
    assert |Fold(chain[0].name)| != |Fold(name)|;
  }

  /** Three lines stamped 100, 200 and 300, trimmed to at most 2 lines,
      leave the lines at 200 and 300, a count of 2 and an oldest time of 200. */
  lemma {:induction false} RetainKeepsNewest()
    ensures var l1, l2, l3 := Line(100, [], "a"), Line(200, [], "b"), Line(300, [], "c");
            Retain(Object("#chat", [l1, l2, l3], 3, 100), 2, 0) == Object("#chat", [l2, l3], 2, 200)
  {
    var l1, l2, l3 := Line(100, [], "a"), Line(200, [], "b"), Line(300, [], "c");
    var o := Object("#chat", [l1, l2, l3], 3, 100);
    assert [l1, l2, l3][..2] == [l1, l2] && [l1, l2][..1] == [l1];
    assert [l2, l3][..1] == [l2];
    assert Oldest([l2]) == 200;
    assert Oldest([l2, l3]) == Min(Oldest([l2]), 300);
    assert Oldest([l1]) == 100;
    assert Oldest([l1, l2]) == Min(Oldest([l1]), 200);
    assert Oldest([l1, l2, l3]) == Min(Oldest([l1, l2]), 300);
    assert Consistent(o) && NonZero(o.lines);
    NewerKeepsAll(o.lines, 0);
    assert o.lines[1..] == [l2, l3];
  }

  // ---------------------------------------------------------------------------
  // Replay: hbm_history_request and hbm_send_line
  // ---------------------------------------------------------------------------

  /** The capabilities the client negotiated. */
  datatype Client = Client(serverTime: bool, batch: bool)

  /** One protocol line sent to the client, with its message tags. */
  datatype Out = Out(tags: seq<Tag>, text: string)

  /** What a replay emits and its return code. */
  datatype Replay = Replay(out: seq<Out>, rc: int)

  /** can_receive_history: playback is only for clients with server-time. */
  predicate CanReceiveHistory(c: Client)
  {
    c.serverTime
  }

  /** ":<me> BATCH +<id> chathistory <target>" */
  function BatchOpen(me: string, id: string, target: string): Out
  {
    Out([], ":" + me + " BATCH +" + id + " chathistory " + target)
  }

  /** ":<me> BATCH -<id>" */
  function BatchClose(me: string, id: string): Out
  {
    Out([], ":" + me + " BATCH -" + id)
  }

  /** hbm_send_line: a line with its stored tags, preceded by a batch tag when a
      batch id is set. */
  function SendLine(c: Client, l: Line, batchId: string): (r: seq<Out>)
    ensures !CanReceiveHistory(c) ==> r == []
    ensures CanReceiveHistory(c) ==> |r| == 1 && r[0].text == l.text
    ensures CanReceiveHistory(c) && batchId == "" ==> r[0].tags == l.tags
    ensures CanReceiveHistory(c) && batchId != "" ==> r[0].tags == [Tag("batch", batchId)] + l.tags
  {
    if !CanReceiveHistory(c) then []
    else if batchId == "" then [Out(l.tags, l.text)]
    else [Out([Tag("batch", batchId)] + l.tags, l.text)]
  }

  /** The loop of hbm_history_request over the log, oldest first. */
  function SendLines(c: Client, lines: seq<Line>, batchId: string): (r: seq<Out>)
    ensures !CanReceiveHistory(c) ==> r == []
    ensures CanReceiveHistory(c) ==> |r| == |lines|
    ensures CanReceiveHistory(c) ==> forall i :: 0 <= i < |lines| ==> r[i].text == lines[i].text
    ensures CanReceiveHistory(c) ==> forall i :: 0 <= i < |lines| ==>
              r[i].tags == (if batchId == "" then lines[i].tags else [Tag("batch", batchId)] + lines[i].tags)
  {
    if lines == [] then []
    else
      var rest := SendLines(c, lines[1..], batchId);
      var r := SendLine(c, lines[0], batchId) + rest;
      assert CanReceiveHistory(c) ==> forall i :: 1 <= i < |lines| ==> r[i] == rest[i - 1];
      r
  }

  /** hbm_history_request: `me` is the server name and `batchId` the id
      generate_batch_id would produce. Nothing is sent for an unknown target or
      a client without server-time; otherwise the whole log is replayed, framed
      by an open and a close line when the client has the batch capability. */
  function HistoryRequest(hash: SipHash, idx: Index, c: Client, name: string, me: string, batchId: string): (r: Replay)
    ensures r.rc == 1 <==> FindObject(hash, idx, name).Some? && CanReceiveHistory(c)
    ensures r.rc != 1 ==> r.rc == 0 && r.out == []
  {
    match FindObject(hash, idx, name)
    case None => Replay([], 0)
    case Some(h) =>
      if !CanReceiveHistory(c) then Replay([], 0)
      else if c.batch then
        var close := if batchId != "" then [BatchClose(me, batchId)] else [];
        Replay([BatchOpen(me, batchId, name)] + SendLines(c, h.lines, batchId) + close, 1)
      else
        Replay(SendLines(c, h.lines, ""), 1)
  }

  /** A replay to a client with the batch capability is framed by the open
      and the close line around one line per stored line. */
  lemma {:induction false} ReplayBatchedFrame(hash: SipHash, idx: Index, c: Client, name: string, me: string, batchId: string)
    requires FindObject(hash, idx, name).Some? && c.serverTime && c.batch && batchId != ""
    ensures var r, lines := HistoryRequest(hash, idx, c, name, me, batchId), FindObject(hash, idx, name).value.lines;
            && |r.out| == |lines| + 2
            && r.out[0] == BatchOpen(me, batchId, name)
            && r.out[|r.out| - 1] == BatchClose(me, batchId)
  {
  }

  /** Inside the frame, every stored line oldest first, carrying the batch tag
      before its own tags. */
  lemma {:induction false} ReplayBatchedLines(hash: SipHash, idx: Index, c: Client, name: string, me: string, batchId: string)
    requires FindObject(hash, idx, name).Some? && c.serverTime && c.batch && batchId != ""
    ensures var r, lines := HistoryRequest(hash, idx, c, name, me, batchId), FindObject(hash, idx, name).value.lines;
            forall i :: 0 <= i < |lines| ==>
              i + 1 < |r.out| && r.out[i + 1] == Out([Tag("batch", batchId)] + lines[i].tags, lines[i].text)
  {
    var lines := FindObject(hash, idx, name).value.lines;
    var out := [BatchOpen(me, batchId, name)] + SendLines(c, lines, batchId) + [BatchClose(me, batchId)];
    assert HistoryRequest(hash, idx, c, name, me, batchId).out == out;
    FramedLines(c, lines, batchId, BatchOpen(me, batchId, name), BatchClose(me, batchId));
  }

  lemma {:induction false} FramedLines(c: Client, lines: seq<Line>, batchId: string, open: Out, close: Out)
    requires c.serverTime && batchId != ""
    ensures var out := [open] + SendLines(c, lines, batchId) + [close];
            forall i :: 0 <= i < |lines| ==>
              i + 1 < |out| && out[i + 1] == Out([Tag("batch", batchId)] + lines[i].tags, lines[i].text)
  {
    var body := SendLines(c, lines, batchId);
    var out := [open] + body + [close];
    forall i | 0 <= i < |lines|
      ensures i + 1 < |out| && out[i + 1] == Out([Tag("batch", batchId)] + lines[i].tags, lines[i].text)
    {
      assert out[i + 1] == body[i];
    }
  }

  /** A replay to a client without the batch capability: exactly the stored
      lines, oldest first, with their own tags. */
  lemma {:induction false} ReplayPlain(hash: SipHash, idx: Index, c: Client, name: string, me: string, batchId: string)
    requires FindObject(hash, idx, name).Some? && c.serverTime && !c.batch
    ensures var r, lines := HistoryRequest(hash, idx, c, name, me, batchId), FindObject(hash, idx, name).value.lines;
            |r.out| == |lines| && forall i :: 0 <= i < |lines| ==> r.out[i] == Out(lines[i].tags, lines[i].text)
  {
  }

  /** Replay after an add: a client with server-time but without batch sees the
      new line last, with its time tag and text. */
  lemma {:induction false} ReplayEndsWithAddedLine(hash: SipHash, idx: Index, name: string, mtags: seq<Tag>, text: string,
                                ts: TimeSource, me: string, batchId: string)
    requires |name| <= ObjectLen
    ensures var a := HistoryAdd(hash, idx, name, mtags, text, ts).idx;
            var r := HistoryRequest(hash, a, Client(true, false), name, me, batchId);
            r.rc == 1 && |r.out| > 0 &&
            r.out[|r.out| - 1] == Out(EnsureTimeTag(mtags, ts).tags, text)
  {
    var a := HistoryAdd(hash, idx, name, mtags, text, ts).idx;
    var p := Prior(hash, idx, name);
    HistoryAddFinds(hash, idx, name, mtags, text, ts);
    ReplayPlain(hash, a, Client(true, false), name, me, batchId);
    assert AddLine(p, mtags, text, ts).lines == p.lines + [NewLine(mtags, text, ts)];
  }
}

=== FILE: wrappers.dfy ===
/** Small helper datatypes shared by the history store and the event scheduler. */
module Wrappers {

  /** A value that may be absent: the model of a C pointer that may be NULL. */
  datatype Option<+T> = None | Some(value: T)

  function Min(a: int, b: int): int
  {
    if a <= b then a else b
  }

  function Max(a: int, b: int): int
  {
    if a >= b then a else b
  }

  /** Where an element of a sequence goes when the one at `pos` is cut out. */
  lemma {:induction false} CutIndex<T>(s: seq<T>, pos: nat, k: nat)
    requires pos < |s| && k < |s| - 1
    ensures |s[..pos] + s[pos + 1..]| == |s| - 1
    ensures (s[..pos] + s[pos + 1..])[k] == s[if k < pos then k else k + 1]
  {
  }

  /** Everything in a suffix is in the whole sequence. */
  lemma {:induction false} SuffixMembers<T>(s: seq<T>, d: nat)
    requires d <= |s|
    ensures forall x :: x in s[d..] ==> x in s
  {
    forall x | x in s[d..]
      ensures x in s
    {
      var k :| 0 <= k < |s[d..]| && s[d..][k] == x;
      assert s[d + k] == x;
    }
  }
}
